=== FILE: README.md ===
# A verified model of `l2pixc_to_rivertile`

`scripts/l2pixc_to_rivertile.py` is a batch driver of the SWOT river
simulation chain. For every L2 pixel-cloud annotation file it:

- reads the tile identity (cycle, orbit, tile) from the file's name;
- derives the output paths;
- stops when the outputs already exist;
- optionally synthesises a "ground-truth" pixel cloud from a GDEM raster;
- runs the external RiverObs extraction `swot_pixc2rivertile.py`;
- exports three shapefiles;
- writes a `river-annotation_*.rdf` file for the next stage.

This project models that driver in Dafny as pure functions and proves what
it promises.

| file | module | what it models |
|---|---|---|
| `basics.dfy` | `Basics` | `Option` and `Result` |
| `text.dfy` | `Text` | the Python string and path primitives the script relies on: `str.split` and `sep.join`, `os.path.basename`, POSIX `os.path.join` (two-argument and variadic), and `str.replace` |
| `grid.dfy` | `Grid` | numpy's azimuth decimation `grid[::k, :]` and the boolean-mask selection `grid[landtype == 1]`, which visits cells in row-major order |
| `converter.dfy` | `Converter` | `make_pixc_from_gdem`: the arrays read from the GDEM are turned into the pixel cloud to be written |
| `tile_naming.dfy` | `TileNaming` | parsing the tile id from a descriptor's name, and every output path of a tile |
| `annotation.dfy` | `Annotation` | `write_annotation_file` as the text it writes, plus a reader of that text as its partner |
| `orchestrator.dfy` | `Orchestrator` | the per-job control flow of `main` and `execute`'s exit-code check |

In `Orchestrator`, a run is a function from its inputs to the sequence of
actions performed and the way the run ends:

- `Done`: every job finished.
- `Exited`: the existing-output `return`, which ends the whole of `main`.
- `Raised`: an exception escaped.

Everything the driver asks the outside world is an input, held in an
`Environment` record:

- whether a file exists, given the actions performed so far;
- the exit code of an extraction call;
- `os.path.abspath`;
- the `RIVEROBS` environment variable;
- the contents of the netCDF files.

The ground-truth conversion enters the per-tile functions (`RunTile`,
`Process`, `Synthesis`) as a parameter. `RunJob` instantiates it with
`MakePixcFromGdem` and a subsample factor of 2. The order of a job's actions
is therefore proved for every conversion.

## Model

| member | source | states |
|---|---|---|
| `Text.Split` | scripts/l2pixc_to_rivertile.py:175 | `str.split` on one character: there is always one field more than separators; no field contains the separator; joining the fields gives the string back |
| `Text.SplitJoin` | scripts/l2pixc_to_rivertile.py:175 | splitting a join of separator-free fields gives the fields back |
| `Text.BasenameOfPathJoin` | scripts/l2pixc_to_rivertile.py:197-199 | `os.path.basename` of `os.path.join(dir, name)` is `name` for a plain file name, whatever the directory |
| `Text.BasenameOfPathJoinAll` | scripts/l2pixc_to_rivertile.py:264-266 | the base name of a multi-part `os.path.join` is its last part |
| `Text.DirnameOfPathJoin` | scripts/l2pixc_to_rivertile.py:197-199 | a plain file name joined onto a directory that does not end in `/` lies in that directory |
| `Text.PathJoinAllAvoids` | scripts/l2pixc_to_rivertile.py:264-266 | a character other than `/` that is absent from every part of a join is absent from the joined path |
| `Text.ReplaceAllWithoutOccurrence` | scripts/l2pixc_to_rivertile.py:324 | `str.replace` leaves a string without occurrences of the pattern unchanged |
| `Text.ReplaceAllOfSoleSuffix` | scripts/l2pixc_to_rivertile.py:324 | when the pattern occurs only at the end, `str.replace` is the suffix change |
| `Grid.Decimate` | scripts/l2pixc_to_rivertile.py:61-68 | `rows[::k]` is empty exactly when `rows` is, and its row `i` is row `i*k` of the input |
| `Grid.DecimateLength` | scripts/l2pixc_to_rivertile.py:61-68 | `rows[::k]` has `(A + k - 1) / k` rows |
| `Grid.DecimateRow` | scripts/l2pixc_to_rivertile.py:61-68 | row `i` of the decimated grid is row `i*k` of the original, which exists |
| `Grid.DecimatePreservesWidth` | scripts/l2pixc_to_rivertile.py:61-68 | decimation keeps every row's width |
| `Grid.GridWater` | scripts/l2pixc_to_rivertile.py:80-86 | the cells the mask `landtype == 1` selects are water cells, in strictly increasing row-major order, as many as the mask count |
| `Grid.GridWaterComplete` | scripts/l2pixc_to_rivertile.py:80-86 | every water cell of the grid is selected |
| `Converter.MakePixcFromGdem` | scripts/l2pixc_to_rivertile.py:46-117 | the conversion fails for `k = 0` and, for `k >= 1`, exactly when numpy would raise on mismatched shapes. On success, every per-pixel array has the mask count as its length; `nr_pixels` is the cross-track length and `nr_lines` the decimated row count; the description is the fixed label; every other attribute is the donor's; the pixels are the water cells of the decimated grid in mask order |
| `Converter.ConstantFields` | scripts/l2pixc_to_rivertile.py:95-111 | every pixel has classification 4, continuous classification 1.0, `num_rare_looks = k`, pixel area `ground_spacing * azimuth_spacing * k`, and illumination time equal to its azimuth index |
| `Converter.PixelsAreWaterCells` | scripts/l2pixc_to_rivertile.py:76-86 | every pixel's azimuth index is below `nr_lines` and its range index below `nr_pixels`. The decimated `landtype` is water at that cell. Height, latitude and longitude are the decimated grids' values there. Cross track is the input's `cross_track` at the range index |
| `Converter.PixelSourceCell` | scripts/l2pixc_to_rivertile.py:61-86 | pixel `j` comes from original row `azimuth_index[j] * k`, which is water, and carries that row's height, latitude and longitude |
| `Converter.PixelsInRowMajorOrder` | scripts/l2pixc_to_rivertile.py:76-86 | the (azimuth, range) pairs strictly increase in row-major order |
| `Converter.EveryWaterCellRetained` | scripts/l2pixc_to_rivertile.py:80-86 | every water cell of the decimated grid appears as a pixel |
| `Converter.NoWaterGivesEmptyCloud` | scripts/l2pixc_to_rivertile.py:61-111 | a conformable grid whose kept rows hold no water gives an empty cloud, not an error, whatever the dropped rows hold |
| `TileNaming.TileFields` | scripts/l2pixc_to_rivertile.py:175 | the name's stem split on `_` always has at least one field; no field contains `_`, `.` or `/` |
| `TileNaming.ParseTileId` | scripts/l2pixc_to_rivertile.py:175-178 | a parsed tile id has plain fields (no `_`, `.` or `/`) |
| `TileNaming.ParseFailsIffFewUnderscores` | scripts/l2pixc_to_rivertile.py:175-178 | parsing raises exactly when the stem has fewer than four underscores, i.e. fewer than five fields |
| `TileNaming.ParseConventionalName` | scripts/l2pixc_to_rivertile.py:175-178 | a descriptor named `<dir>/<a>_<b>_<cycle>_<orbit>_<tile>[_...].<ext>` parses to that cycle, orbit and tile |
| `TileNaming.MakeOutputPaths` | scripts/l2pixc_to_rivertile.py:186-222 | the observed-branch directory is `abspath(<out>/pixc)`; the reference-branch directory is `<out>/gdem` and exists, with the reference-branch paths, exactly when `nogdem` is unset; the river and vector outputs end in `.nc` |
| `TileNaming.OutputDirectories` | scripts/l2pixc_to_rivertile.py:186-222 | the river and vector outputs lie in `abspath(<out>/pixc)`, the annotation in `<out>`, and the reference-branch outputs and reference pixel cloud in `<out>/gdem`, as an independent `Dirname` finds them |
| `TileNaming.OutputBasenames` | scripts/l2pixc_to_rivertile.py:186-222 | each output path's base name is its file name: `rivertile_<c>_<o>_<t>.nc`, `pixcvec_<c>_<o>_<t>.nc`, `river-annotation_<c>_<o>_<t>.rdf`, and with the reference branch `pixel_cloud_gdem<c>-<o>_<t>.nc` |
| `TileNaming.TileNameFields` | scripts/l2pixc_to_rivertile.py:197-199 | an output file name splits on `_` back into its lead word, cycle, orbit and tile plus extension |
| `TileNaming.TileNameInjective` | scripts/l2pixc_to_rivertile.py:197-199 | distinct tiles get distinct file names |
| `TileNaming.DistinctTilesDistinctOutputs` | scripts/l2pixc_to_rivertile.py:197-199 | two distinct tiles never share a river, vector or annotation output path |
| `TileNaming.NamingExample` | scripts/l2pixc_to_rivertile.py:197-222 | tile 001/023/45N gets `rivertile_001_023_45N.nc`, `pixcvec_001_023_45N.nc`, `river-annotation_001_023_45N.rdf` and `pixel_cloud_gdem001-023_45N.nc` |
| `Annotation.AnnotationEntries` | scripts/l2pixc_to_rivertile.py:29-43 | the file has four entries when a reference vector output is given, three otherwise |
| `Annotation.EntriesLookup` | scripts/l2pixc_to_rivertile.py:38-42 | under its key, each entry holds the observed pixel cloud, the reference pixel cloud or `None`, and the vector output. `pixcvec file from gdem` is present exactly when that path is given |
| `Annotation.ReadRender` | scripts/l2pixc_to_rivertile.py:37-43 | reading back `key = value` lines gives the entries written, when no key has `=` or a line break and no value has a line break |
| `Annotation.AnnotationReadsBack` | scripts/l2pixc_to_rivertile.py:29-43 | the annotation text reads back as exactly its entries, when no path contains a line break |
| `Orchestrator.MakeDirectories` | scripts/l2pixc_to_rivertile.py:186-192 | a job first ensures its river directory (`abspath(<out>/pixc)`, by `MakeOutputPaths`) and, for the reference branch only, then `<out>/gdem`; nothing else |
| `Orchestrator.Synthesis` | scripts/l2pixc_to_rivertile.py:221-228 | with the reference branch disabled nothing is synthesised. Otherwise a missing `true GDEM file` raises `MissingParameter`; else the step succeeds exactly when the conversion of that file, with the observed pixel cloud as donor, succeeds, and then writes that cloud, alone, to the reference-branch path; a failed conversion raises with its error |
| `Orchestrator.ExtractionProgramName` | scripts/l2pixc_to_rivertile.py:264-266 | the program run is `swot_pixc2rivertile.py` in `<riverobs>/src/bin`, wherever RiverObs is installed: its base name, its directory `PathJoin(PathJoin(home, "src"), "bin")`, and, for an installation path without a trailing `/`, three `Dirname` steps lead back to the installation |
| `Orchestrator.CommandLineWords` | scripts/l2pixc_to_rivertile.py:268-272 | when no path contains a space, the command line split on spaces is the program followed by the pixel cloud, river output, vector output and parameter file, in that order |
| `Orchestrator.ShapefileExports` | scripts/l2pixc_to_rivertile.py:305-340 | the corrected exports of the Findings row: three exports, two of the river output and then one of the vector output |
| `Orchestrator.ShapefileTargets` | scripts/l2pixc_to_rivertile.py:322-340 | the corrected targets end in `_node.shp`, `_reach.shp` and `.shp` and keep their source's path up to the extension, which the script's `.replace` does not always do (Findings); the node export reads group `nodes` at `latitude`/`longitude` with `time`, `height`, `width`, `area_total`, `node_id`, `reach_id`; the reach export group `reaches` at `p_latitud`/`p_longitud` with `reach_id`, `width`, `height`, `slope`, `area_total`; the vector export no group at `latitude_vectorproc`/`longitude_vectorproc` with `height_vectorproc`, `node_index`, `reach_index`, `azimuth_index`, `range_index` |
| `Orchestrator.RunJob` | scripts/l2pixc_to_rivertile.py:166-368 | an early return happens only without `force`, after nothing but directories. A descriptor name that does not parse raises `BadDescriptorName` before any action. A finished job performs directories, synthesis (reference branch only), extraction, three exports (unless `noshp`) and the annotation, in that order, and ends with the annotation. A job that raises `ProcessFailed` ends right after the extraction, with a non-zero code |
| `Orchestrator.RunTile` | scripts/l2pixc_to_rivertile.py:186-368 | the same order of actions for a job whose tile is known, for every conversion; a descriptor without `l2pixc file` raises `MissingParameter` right after the directories |
| `Orchestrator.Process` | scripts/l2pixc_to_rivertile.py:221-368 | past the existing-output check the job never returns early. A failed synthesis (`MissingParameter`, `ConversionFailed`) raises with nothing written; otherwise the job continues as `Located`. A finished job's actions are synthesis, extraction and the finishing steps; a `ProcessFailed` job's are synthesis and the extraction |
| `Orchestrator.Located` | scripts/l2pixc_to_rivertile.py:257-368 | without a RiverObs location the job raises `MissingEnvironment("RIVEROBS")` after the synthesis alone; otherwise it goes on as `Extraction` |
| `Orchestrator.LocatedCall` | scripts/l2pixc_to_rivertile.py:257-278 | with a RiverObs location, the extraction call comes right after the synthesis, and the job finishes exactly when its exit code is 0, else raises `ProcessFailed` with that code and call |
| `Orchestrator.Extraction` | scripts/l2pixc_to_rivertile.py:123-129 | the first action runs RiverObs from `home` on the observed pixel cloud, river output, vector output and absolute parameter file. The job finishes exactly when that call's exit code is 0; a non-zero code raises `ProcessFailed` with that code and call, and nothing after the call happens. Otherwise the finishing actions follow, the annotation last |
| `Orchestrator.Finishing` | scripts/l2pixc_to_rivertile.py:305-368 | unless `noshp`, the three corrected exports (`ShapefileExports`) and then the annotation, as the last action |
| `Orchestrator.SequenceAppend` | scripts/l2pixc_to_rivertile.py:166 | running two batches of jobs is running the first, then the second after the first's actions |
| `Orchestrator.RunStopsAtUnfinishedJob` | scripts/l2pixc_to_rivertile.py:204-219 | once a job returns early or raises, no later job does anything |
| `Orchestrator.RunOneJob` | scripts/l2pixc_to_rivertile.py:166-368 | the run of `main`'s loop over a single descriptor is exactly what that job does (`RunJob`) |
| `Orchestrator.GateEndsRun` | scripts/l2pixc_to_rivertile.py:204-219 | a job that returns early at the existing-output check (or raises) ends the whole run with its own outcome: the descriptors after it are never dealt with |
| `Orchestrator.FinishedJobContinuesRun` | scripts/l2pixc_to_rivertile.py:166-368 | after a job that finishes, the loop goes on with the next descriptor, whose job sees the finished job's actions |
| `Orchestrator.ForcedRunNeverExits` | scripts/l2pixc_to_rivertile.py:204-219 | with `force` the existing-output check never ends a run |
| `Orchestrator.EarlyReturnIff` | scripts/l2pixc_to_rivertile.py:204-219 | a job returns early exactly when its name parses, it names a pixel cloud, `force` is unset and both observed-branch outputs exist; it has then only made its directories |
| `Orchestrator.ReferenceCloudOfJob` | scripts/l2pixc_to_rivertile.py:221-228 | with the reference branch, a job past the existing-output check writes, right after its directories, `MakePixcFromGdem` of the `true GDEM file` grids with the observed pixel cloud's attributes and factor 2 to the reference pixel-cloud path; a missing `true GDEM file` or a failed conversion raises after the directories alone |
| `Orchestrator.TileReferenceCloud` | scripts/l2pixc_to_rivertile.py:221-228 | the same for a job whose tile is known and any conversion |
| `Orchestrator.ExtractionOfJob` | scripts/l2pixc_to_rivertile.py:257-278 | after the directories and synthesis, a job runs RiverObs from the command-line location if given, else from `RIVEROBS`, on its pixel cloud, river output, vector output and absolute parameter file; it raises `ProcessFailed` exactly when that call's exit code is non-zero. Without either location it raises `MissingEnvironment` and runs nothing |
| `Orchestrator.TileExtraction` | scripts/l2pixc_to_rivertile.py:257-278 | the same for a job whose tile is known and any conversion |
| `Orchestrator.DoneJobExports` | scripts/l2pixc_to_rivertile.py:305-340 | unless `noshp`, a finished job's three exports come right before its annotation; they are the corrected exports, and equal the exports as written whenever `.nc` occurs in the river and vector outputs only as their extension |
| `Orchestrator.DoneJobAnnotation` | scripts/l2pixc_to_rivertile.py:363-368 | a finished job's last action writes the annotation. The annotation names the observed pixel cloud and the vector output, `None` as reference pixel cloud under `nogdem`, and `pixcvec file from gdem` exactly when `nogdem` is unset. The next stage reads it back entry for entry |
| `Orchestrator.ShapefileExportsAsWritten` | scripts/l2pixc_to_rivertile.py:322-340 | the exports as the script computes their targets: three exports of the river output (twice) and the vector output |
| `Orchestrator.AsWrittenLayers` | scripts/l2pixc_to_rivertile.py:307-340 | the exports as written carry the node, reach and vector layers, in that order, with the same groups, coordinate fields and variables as the corrected exports |
| `Orchestrator.NodeTargetAsWritten` | scripts/l2pixc_to_rivertile.py:324 | `"a.nc/r.nc".replace(".nc", "_node.shp")` is `a_node.shp/r_node.shp` |
| `Orchestrator.ReplaceRewritesDirectory` | scripts/l2pixc_to_rivertile.py:324 | for a river output in a directory named `a.nc`, the target as written loses its source's directory, while the suffix change gives `a.nc/r_node.shp` |
| `Orchestrator.AsWrittenAgreesOnSoleExtension` | scripts/l2pixc_to_rivertile.py:322-340 | when `.nc` occurs in the output paths only as their extension, the exports as written equal the corrected ones |
| `Orchestrator.SoleExtensionOfOutputs` | scripts/l2pixc_to_rivertile.py:186-198 | when the absolute `<out>/pixc` contains no `.`, the river and vector outputs have `.nc` only as their extension |

## Left out

- netCDF reading and writing, `PixelCloud.from_ncfile`, `copy_attributes`
  and `to_ncfile` are foreign library calls. The GDEM arrays and the donor's
  global attributes are inputs (`GdemFile`, `GlobalAttributes`, whose
  `others` map stands for every attribute copied unchanged). The cloud is the
  value of the `WritePixelCloud` action, not a file.
- Output directory of the synthesised cloud (lines 112-117): the
  `os.path.split`/`abspath` of the output path is file-writing detail. The
  action carries the path as given.
- Floating point: heights and coordinates are `real`. The pixel area is kept
  as its three factors (`Area`), with `Value` giving the product. IEEE
  rounding is not modelled.
- A negative `subsample_factor` cannot be passed: the factor is a `nat`.
  The driver always passes 2.
- `Converter.MakePixcFromGdem`: a grid with zero rows has no row width. The
  model then takes the width from `cross_track`, which is what `nr_pixels`
  is set to.
- `execute`'s shell invocation and the live echo of the child's output are
  process I/O. Only the exit code is modelled, as an input that may depend on
  the actions performed so far.
- `glob` discovery of the descriptors, `my_rdf` parsing and argparse: the
  run takes the list of jobs, each a path with its key/value map, and the
  parsed command line.
- `os.path.isfile`, `os.path.isdir`/`os.makedirs`, `os.path.abspath` and the
  `RIVEROBS` variable are inputs. Making a directory is one `EnsureDir`
  action, whether or not it already existed.
- The internals of `pixc_to_shp`: an export is an action naming source,
  target, coordinate fields, variables and layer group.
- `print` output is not modelled.
- The commented-out blocks (lines 182-183, 233-255, 281-301, 342-358) are
  inert and not modelled. In particular the reference-branch extraction and
  its shapefiles are never run.
- `Orchestrator.RunJob`: the trace exports to the corrected targets of the
  Findings row (`ShapefileExports`), not to the targets line 324's
  `.replace` computes. The two agree whenever `.nc` occurs in the river and
  vector outputs only as their extension (`DoneJobExports`), in particular
  whenever the absolute `<out>/pixc` contains no `.`
  (`SoleExtensionOfOutputs`).
- `Orchestrator.RunJob`: its own contract states the order of actions
  through the kind of each action (`Steps`). The arguments of the
  extraction call, the cloud synthesised and the exports are stated by the
  lemmas `ExtractionOfJob`, `ReferenceCloudOfJob` and `DoneJobExports`.
- `Orchestrator.ShapefileExportsAsWritten` states only the number and sources
  of the exports. Its targets are what `NodeTargetAsWritten`,
  `ReplaceRewritesDirectory` and `AsWrittenAgreesOnSoleExtension` describe,
  and its layers what `AsWrittenLayers` states.

Points of the driver's behaviour a reader may not expect:

- The existing-output check returns from `main` (lines 209 and 219), so it
  ends the whole run, not just the job (`GateEndsRun`; with `RunOneJob` and
  `FinishedJobContinuesRun` these tie the run to the jobs it is made of).
- The annotation lists `pixcvec file from gdem` whenever `nogdem` is unset,
  although the reference-branch extraction that would produce that file is
  commented out (lines 213-214, 281-301, 363-368).
- The `l2pixc file` key is looked up before the existing-output check
  (line 196), so a descriptor without it raises even when the outputs exist.

## Findings

| source | as written | input that shows it | evidently intended | confidence | as-written member | corrected member |
|---|---|---|---|---|---|---|
| scripts/l2pixc_to_rivertile.py:324 | the shapefile targets are `path.replace(".nc", ...)`, which replaces every `.nc` in the full path | an output directory whose name contains `.nc`, e.g. river output `a.nc/r.nc`: the node target becomes `a_node.shp/r_node.shp`, in a directory that is not the source's | replace only the trailing `.nc` extension, giving `a.nc/r_node.shp` | medium; not executed | `Orchestrator.ShapefileExportsAsWritten`, `Orchestrator.ReplaceRewritesDirectory` | `Orchestrator.ShapefileExports`, `Orchestrator.ShapefileTargets`, `Orchestrator.AsWrittenAgreesOnSoleExtension` |

=== FILE: annotation.dfy ===
/**
 * The chained annotation file a job leaves for the next pipeline stage: one
 * `<key> = <value>` line per produced file. A reader for the same format is
 * the writer's partner: reading what was written gives the entries back.
 */
module Annotation {
  import opened Basics
  import opened Text

  datatype Entry = Entry(key: string, value: string)

  /** What Python's `%s` writes for an optional path: the path, or `None`. */
  function FormatOptional(path: Option<string>): string
  {
    match path
    case Some(p) => p
    case None => "None"
  }

  /**
   * The entries of the annotation file: the observed pixel cloud, the
   * synthesised reference pixel cloud (`None` when there is none), the
   * pixel-cloud-vector output, and the reference-branch vector output only
   * when there is one.
   */
  function AnnotationEntries(pixcFile: string, gdemPixc: Option<string>, pixcvecFile: string, pixcvecGdem: Option<string>): (es: seq<Entry>)
    ensures |es| == if pixcvecGdem.Some? then 4 else 3
  {
    [Entry("pixc file", pixcFile),
     Entry("gdem pixc file", FormatOptional(gdemPixc)),
     Entry("pixcvec file", pixcvecFile)]
    + (if pixcvecGdem.Some? then [Entry("pixcvec file from gdem", pixcvecGdem.value)] else [])
  }

  /** One line of the file without its line break. */
  function Body(e: Entry): string
  {
    e.key + " = " + e.value
  }

  /** The file's text: every entry's line, each ended by a line break. */
  function Render(es: seq<Entry>): string
    decreases |es|
  {
    if es == [] then "" else Body(es[0]) + "\n" + Render(es[1..])
  }

  /** The text the job writes to its annotation file. */
  function AnnotationText(pixcFile: string, gdemPixc: Option<string>, pixcvecFile: string, pixcvecGdem: Option<string>): string
  {
    Render(AnnotationEntries(pixcFile, gdemPixc, pixcvecFile, pixcvecGdem))
  }

  // ---------------------------------------------------------------- reader

  /** `s` cut at its first `c`: the text before it and the text after it. */
  function SplitAtFirst(s: string, c: char): (r: Option<(string, string)>)
    ensures r.None? <==> c !in s
    ensures r.Some? ==> c !in r.value.0 && s == r.value.0 + [c] + r.value.1
    decreases |s|
  {
    if s == [] then None
    else if s[0] == c then Some(([], s[1..]))
    else
      match SplitAtFirst(s[1..], c)
      case None => None
      case Some((a, b)) => Some(([s[0]] + a, b))
  }

  /** A line `<key> = <value>`: cut at the first `=`, less the one space on either side. */
  function ParseLine(line: string): Option<Entry>
  {
    match SplitAtFirst(line, '=')
    case None => None
    case Some((a, b)) =>
      if |a| >= 1 && a[|a| - 1] == ' ' && |b| >= 1 && b[0] == ' '
      then Some(Entry(a[..|a| - 1], b[1..]))
      else None
  }

  /** The entries of the non-empty lines, or `None` when one is malformed. */
  function ParseLines(lines: seq<string>): Option<seq<Entry>>
    decreases |lines|
  {
    if lines == [] then Some([])
    else if lines[0] == "" then ParseLines(lines[1..])
    else
      match ParseLine(lines[0])
      case None => None
      case Some(e) =>
        match ParseLines(lines[1..])
        case None => None
        case Some(es) => Some([e] + es)
  }

  function ReadAnnotation(text: string): Option<seq<Entry>>
  {
    ParseLines(Split(text, '\n'))
  }

  /** The value of the first entry with `key`. */
  function Lookup(es: seq<Entry>, key: string): (v: Option<string>)
    ensures v.Some? <==> exists i :: 0 <= i < |es| && es[i].key == key
    decreases |es|
  {
    if es == [] then None
    else if es[0].key == key then Some(es[0].value)
    else
      var v := Lookup(es[1..], key);
      assert forall i :: 1 <= i < |es| ==> es[i] == es[1..][i - 1];
      v
  }

  // ---------------------------------------------------------------- round trip

  /** An entry the format can carry: no `=` in the key, no line break anywhere. */
  predicate Writable(e: Entry)
  {
    '=' !in e.key && '\n' !in e.key && '\n' !in e.value
  }

  lemma {:induction false} SplitAtFirstUnique(a: string, c: char, b: string)
    requires c !in a
    ensures SplitAtFirst(a + [c] + b, c) == Some((a, b))
    decreases |a|
  {
    var s := a + [c] + b;
    if a != [] {
      assert s[1..] == a[1..] + [c] + b;
      SplitAtFirstUnique(a[1..], c, b);
      assert [a[0]] + a[1..] == a;
    }
  }

  /** A written line reads back as its entry. */
  lemma ParseBody(e: Entry)
    requires Writable(e)
    ensures ParseLine(Body(e)) == Some(e)
  {
    var a := e.key + " ";
    var b := " " + e.value;
    assert Body(e) == a + ['='] + b;
    SplitAtFirstUnique(a, '=', b);
    assert a[..|a| - 1] == e.key;
    assert b[1..] == e.value;
  }

  /** The lines of the file, without their line breaks. */
  function Bodies(es: seq<Entry>): (lines: seq<string>)
    ensures |lines| == |es|
    ensures forall i :: 0 <= i < |es| ==> lines[i] == Body(es[i])
    decreases |es|
  {
    if es == [] then [] else [Body(es[0])] + Bodies(es[1..])
  }

  /** The file's text is its lines joined by line breaks, with a final empty field after the last break. */
  lemma {:induction false} RenderIsJoin(es: seq<Entry>)
    ensures Render(es) == Join(Bodies(es) + [""], '\n')
    decreases |es|
  {
    if es != [] {
      RenderIsJoin(es[1..]);
      var parts := Bodies(es) + [""];
      assert parts[1..] == Bodies(es[1..]) + [""];
    }
  }

  lemma {:induction false} ParseBodies(es: seq<Entry>)
    requires forall i :: 0 <= i < |es| ==> Writable(es[i])
    ensures ParseLines(Bodies(es) + [""]) == Some(es)
    decreases |es|
  {
    var lines := Bodies(es) + [""];
    if es == [] {
      assert lines[1..] == [];
    } else {
      ParseBody(es[0]);
      assert lines[0] == Body(es[0]);
      assert Body(es[0]) != "" by { assert Body(es[0])[|es[0].key|] == ' '; }
      assert lines[1..] == Bodies(es[1..]) + [""];
      ParseBodies(es[1..]);
      assert [es[0]] + es[1..] == es;
    }
  }

  /** Reading a written file gives back exactly the entries written, in order. */
  lemma {:induction false} ReadRender(es: seq<Entry>)
    requires forall i :: 0 <= i < |es| ==> Writable(es[i])
    ensures ReadAnnotation(Render(es)) == Some(es)
  {
    RenderIsJoin(es);
    var parts := Bodies(es) + [""];
    forall i | 0 <= i < |parts|
      ensures '\n' !in parts[i]
    {
      if i < |es| {
        assert parts[i] == es[i].key + " = " + es[i].value;
      }
    }
    SplitJoin(parts, '\n');
    ParseBodies(es);
  }

  /** The four keys can be written: none holds `=` or a line break. */
  lemma KeysWritable()
    ensures forall c :: c in "pixc file" ==> c != '=' && c != '\n'
    ensures forall c :: c in "gdem pixc file" ==> c != '=' && c != '\n'
    ensures forall c :: c in "pixcvec file" ==> c != '=' && c != '\n'
    ensures forall c :: c in "pixcvec file from gdem" ==> c != '=' && c != '\n'
  {
  }

  /** The entries name every produced path under its key, the reference vector output exactly when there is one. */
  lemma EntriesLookup(pixcFile: string, gdemPixc: Option<string>, pixcvecFile: string, pixcvecGdem: Option<string>)
    ensures var es := AnnotationEntries(pixcFile, gdemPixc, pixcvecFile, pixcvecGdem);
      && Lookup(es, "pixc file") == Some(pixcFile)
      && Lookup(es, "gdem pixc file") == Some(if gdemPixc.Some? then gdemPixc.value else "None")
      && Lookup(es, "pixcvec file") == Some(pixcvecFile)
      && Lookup(es, "pixcvec file from gdem") == pixcvecGdem
  {
    var es := AnnotationEntries(pixcFile, gdemPixc, pixcvecFile, pixcvecGdem);
    var k0, k1, k2, k3 := "pixc file", "gdem pixc file", "pixcvec file", "pixcvec file from gdem";
    assert |k0| == 9 && |k1| == 14 && |k2| == 12 && |k3| == 22;
    var tail := es[3..];
    assert tail == if pixcvecGdem.Some? then [Entry(k3, pixcvecGdem.value)] else [];
    assert Lookup(tail, k3) == pixcvecGdem;
    assert Lookup(tail, k0) == None && Lookup(tail, k1) == None && Lookup(tail, k2) == None;
    assert es[2..][1..] == tail && es[1..][1..] == es[2..];
    assert Lookup(es[2..], k3) == pixcvecGdem && Lookup(es[2..], k2) == Some(pixcvecFile);
    assert Lookup(es[1..], k3) == pixcvecGdem && Lookup(es[1..], k2) == Some(pixcvecFile);
    assert Lookup(es[1..], k1) == Some(FormatOptional(gdemPixc));
  }

  /**
   * The next stage finds every produced path under its key: the observed
   * pixel cloud, the reference pixel cloud or `None`, the vector output, and
   * the reference vector output exactly when the job has one.
   */
  lemma AnnotationReadsBack(pixcFile: string, gdemPixc: Option<string>, pixcvecFile: string, pixcvecGdem: Option<string>)
    requires '\n' !in pixcFile && '\n' !in pixcvecFile
    requires gdemPixc.Some? ==> '\n' !in gdemPixc.value
    requires pixcvecGdem.Some? ==> '\n' !in pixcvecGdem.value
    ensures ReadAnnotation(AnnotationText(pixcFile, gdemPixc, pixcvecFile, pixcvecGdem))
            == Some(AnnotationEntries(pixcFile, gdemPixc, pixcvecFile, pixcvecGdem))
  {
    var es := AnnotationEntries(pixcFile, gdemPixc, pixcvecFile, pixcvecGdem);
    KeysWritable();
    assert '\n' !in FormatOptional(gdemPixc);
    assert forall i :: 0 <= i < |es| ==> Writable(es[i]);
    ReadRender(es);
  }
}

=== FILE: basics.dfy ===
/** Failure-carrying wrappers shared by the other modules. */
module Basics {

  /** A value that may be absent; Python's `None` is `None` here. */
  datatype Option<+T> = None | Some(value: T)

  /** The outcome of an operation that can raise: a value or the error raised. */
  datatype Result<+T, +E> = Ok(value: T) | Err(error: E)
}

=== FILE: converter.dfy ===
/**
 * `make_pixc_from_gdem`: repacks the water cells of a ground-truth DEM
 * (GDEM) grid as a sparse pixel cloud, copying the global attributes of an
 * observed pixel cloud. Reading and writing the netCDF files is left to the
 * caller: the converter takes the arrays already read and returns the cloud
 * to be written.
 */
module Converter {
  import opened Basics
  import opened Grid

  /** The arrays and attributes read from a GDEM file; every 2-D array is azimuth-major. */
  datatype GdemFile = GdemFile(
    landtype: seq<seq<int>>,
    elevation: seq<seq<real>>,
    latitude: seq<seq<real>>,
    longitude: seq<seq<real>>,
    crossTrack: seq<real>,
    groundSpacing: real,
    azimuthSpacing: real,
    cycleNumber: int,
    passNumber: int)

  /**
   * The global attributes of a pixel cloud. `others` stands for every
   * attribute the converter copies from the donor without looking at it.
   */
  datatype GlobalAttributes = GlobalAttributes(
    description: string,
    nrPixels: int,
    nrLines: int,
    tileRef: string,
    others: map<string, string>)

  /**
   * The pixel area `ground_spacing * azimuth_spacing * k`, kept as its three
   * factors; `Value` gives the product. Keeping it symbolic keeps real
   * multiplication out of the proofs, which only ever compare areas.
   */
  datatype Area = Area(groundSpacing: real, azimuthSpacing: real, factor: nat) {
    function Value(): real
    {
      groundSpacing * azimuthSpacing * (factor as real)
    }
  }

  /** A pixel cloud: its global attributes and one entry per pixel in each per-pixel array. */
  datatype PixelCloud = PixelCloud(
    attributes: GlobalAttributes,
    classification: seq<int>,
    continuousClassification: seq<real>,
    height: seq<real>,
    latitude: seq<real>,
    longitude: seq<real>,
    pixelArea: seq<Area>,
    crossTrack: seq<real>,
    rangeIndex: seq<nat>,
    azimuthIndex: seq<nat>,
    illuminationTime: seq<nat>,
    numRareLooks: seq<real>)

  /** Why numpy would raise: a zero slice step, or arrays whose shapes differ from the mask's. */
  datatype ConvertError = ZeroStep | ShapeMismatch

  /** The classification code every retained pixel is remapped to (interior water). */
  const InteriorWater := 4

  /** The description written into every synthesized cloud. */
  const GdemDescription := "gdem water pixels repacked as a pixel cloud"

  /** The number of pixels of a cloud: the common length of its per-pixel arrays. */
  function Size(pc: PixelCloud): nat
  {
    |pc.classification|
  }

  /** Every per-pixel array of `pc` has the same length. */
  predicate SameLengths(pc: PixelCloud)
  {
    var n := |pc.classification|;
    && |pc.continuousClassification| == n
    && |pc.height| == n
    && |pc.latitude| == n
    && |pc.longitude| == n
    && |pc.pixelArea| == n
    && |pc.crossTrack| == n
    && |pc.rangeIndex| == n
    && |pc.azimuthIndex| == n
    && |pc.illuminationTime| == n
    && |pc.numRareLooks| == n
  }

  /**
   * The decimated arrays can be masked together: the four grids have the
   * same number of rows and every row is as wide as `crossTrack`, which
   * numpy's `meshgrid` spreads over the rows.
   */
  predicate Conformable(landtype: seq<seq<int>>, elevation: seq<seq<real>>, latitude: seq<seq<real>>,
                        longitude: seq<seq<real>>, width: nat)
  {
    && |elevation| == |landtype|
    && |latitude| == |landtype|
    && |longitude| == |landtype|
    && Rectangular(landtype, width)
    && Rectangular(elevation, width)
    && Rectangular(latitude, width)
    && Rectangular(longitude, width)
  }

  /** The GDEM file decimated by `k` can be converted. */
  predicate Convertible(gdem: GdemFile, k: nat)
    requires k >= 1
  {
    Conformable(Decimate(gdem.landtype, k), Decimate(gdem.elevation, k), Decimate(gdem.latitude, k),
                Decimate(gdem.longitude, k), |gdem.crossTrack|)
  }

  /** The grid cell of each pixel, from its azimuth and range indices. */
  function PixelCells(pc: PixelCloud): seq<Cell>
    requires SameLengths(pc)
  {
    seq(Size(pc), j requires 0 <= j < Size(pc) => Cell(pc.azimuthIndex[j], pc.rangeIndex[j]))
  }

  /** Every cell lies inside `grid`. */
  predicate Inside<T>(grid: seq<seq<T>>, cells: seq<Cell>)
  {
    forall j :: 0 <= j < |cells| ==> cells[j].line < |grid| && cells[j].pixel < |grid[cells[j].line]|
  }

  /** `grid[mask]` for the mask whose true cells are `cells`: the grid's value at each cell, in order. */
  function Gather<T>(grid: seq<seq<T>>, cells: seq<Cell>): (v: seq<T>)
    requires Inside(grid, cells)
    ensures |v| == |cells|
    ensures forall j :: 0 <= j < |v| ==> v[j] == grid[cells[j].line][cells[j].pixel]
  {
    seq(|cells|, j requires 0 <= j < |cells| => grid[cells[j].line][cells[j].pixel])
  }

  /** `np.zeros(n) + x`: `n` copies of `x`. */
  function Fill<T>(n: nat, x: T): (v: seq<T>)
    ensures |v| == n
    ensures forall j :: 0 <= j < n ==> v[j] == x
  {
    seq(n, j => x)
  }

  /**
   * The cloud holding one pixel per cell of `cells`, with the values the
   * grids hold there and the constant fields of a synthesized cloud.
   */
  function Repack(cells: seq<Cell>, elevation: seq<seq<real>>, latitude: seq<seq<real>>, longitude: seq<seq<real>>,
                  crossTrack: seq<real>, area: Area, looks: real, attributes: GlobalAttributes): (pc: PixelCloud)
    requires Inside(elevation, cells) && Inside(latitude, cells) && Inside(longitude, cells)
    requires forall j :: 0 <= j < |cells| ==> cells[j].pixel < |crossTrack|
    ensures SameLengths(pc) && Size(pc) == |cells|
    ensures PixelCells(pc) == cells
    ensures pc.attributes == attributes
  {
    var n := |cells|;
    var azimuth := seq(n, j requires 0 <= j < n => cells[j].line);
    var range := seq(n, j requires 0 <= j < n => cells[j].pixel);
    PixelCloud(
      attributes,
      classification := Fill(n, InteriorWater),
      continuousClassification := Fill(n, 1.0),
      height := Gather(elevation, cells),
      latitude := Gather(latitude, cells),
      longitude := Gather(longitude, cells),
      pixelArea := Fill(n, area),
      crossTrack := seq(n, j requires 0 <= j < n => crossTrack[cells[j].pixel]),
      rangeIndex := range,
      azimuthIndex := azimuth,
      illuminationTime := azimuth,
      numRareLooks := Fill(n, looks))
  }

  /**
   * The pixel cloud made from `gdem` with azimuth subsampling `k`: one pixel
   * per water cell of the decimated grid, in row-major order, carrying that
   * cell's indices and geophysical values, and the constant fields of a
   * synthesized cloud. Fails exactly when numpy would raise.
   */
  function MakePixcFromGdem(gdem: GdemFile, donor: GlobalAttributes, k: nat): (r: Result<PixelCloud, ConvertError>)
    ensures k == 0 ==> r == Err(ZeroStep)
    ensures k >= 1 ==> (r.Ok? <==> Convertible(gdem, k))
    ensures r.Ok? ==> k >= 1 && SameLengths(r.value) && Size(r.value) == MaskCount(Decimate(gdem.landtype, k))
    // The global attributes are the donor's, with the three the converter overrides.
    ensures r.Ok? ==>
      var a := r.value.attributes;
      && a.description == GdemDescription
      && a.nrPixels == |gdem.crossTrack|
      && a.nrLines == |Decimate(gdem.landtype, k)|
      && a.tileRef == donor.tileRef
      && a.others == donor.others
    // The pixels are the water cells of the decimated grid, in the order the mask selects them.
    ensures r.Ok? ==> PixelCells(r.value) == GridWater(Decimate(gdem.landtype, k))
  {
    if k == 0 then Err(ZeroStep)
    else
      var landtype := Decimate(gdem.landtype, k);
      var elevation := Decimate(gdem.elevation, k);
      var latitude := Decimate(gdem.latitude, k);
      var longitude := Decimate(gdem.longitude, k);
      var width := |gdem.crossTrack|;
      if !Conformable(landtype, elevation, latitude, longitude, width) then Err(ShapeMismatch)
      else
        var cells := GridWater(landtype);
        var attributes := donor.(description := GdemDescription, nrPixels := width, nrLines := |landtype|);
        var area := Area(gdem.groundSpacing, gdem.azimuthSpacing, k);
        Ok(Repack(cells, elevation, latitude, longitude, gdem.crossTrack, area, k as real, attributes))
  }

  /** The constant fields of a repacked cloud. */
  lemma RepackConstants(cells: seq<Cell>, elevation: seq<seq<real>>, latitude: seq<seq<real>>, longitude: seq<seq<real>>,
                        crossTrack: seq<real>, area: Area, looks: real, attributes: GlobalAttributes)
    requires Inside(elevation, cells) && Inside(latitude, cells) && Inside(longitude, cells)
    requires forall j :: 0 <= j < |cells| ==> cells[j].pixel < |crossTrack|
    ensures var pc := Repack(cells, elevation, latitude, longitude, crossTrack, area, looks, attributes);
      forall j :: 0 <= j < Size(pc) ==>
        && pc.classification[j] == InteriorWater
        && pc.continuousClassification[j] == 1.0
        && pc.numRareLooks[j] == looks
        && pc.pixelArea[j] == area
        && pc.illuminationTime[j] == pc.azimuthIndex[j]
  {
  }

  /** The per-cell values of a repacked cloud. */
  lemma RepackValues(cells: seq<Cell>, elevation: seq<seq<real>>, latitude: seq<seq<real>>, longitude: seq<seq<real>>,
                     crossTrack: seq<real>, area: Area, looks: real, attributes: GlobalAttributes)
    requires Inside(elevation, cells) && Inside(latitude, cells) && Inside(longitude, cells)
    requires forall j :: 0 <= j < |cells| ==> cells[j].pixel < |crossTrack|
    ensures var pc := Repack(cells, elevation, latitude, longitude, crossTrack, area, looks, attributes);
      forall j :: 0 <= j < Size(pc) ==>
        && cells[j] == Cell(pc.azimuthIndex[j], pc.rangeIndex[j])
        && pc.height[j] == elevation[cells[j].line][cells[j].pixel]
        && pc.latitude[j] == latitude[cells[j].line][cells[j].pixel]
        && pc.longitude[j] == longitude[cells[j].line][cells[j].pixel]
        && pc.crossTrack[j] == crossTrack[cells[j].pixel]
  {
    var pc := Repack(cells, elevation, latitude, longitude, crossTrack, area, looks, attributes);
    forall j | 0 <= j < Size(pc) ensures cells[j] == Cell(pc.azimuthIndex[j], pc.rangeIndex[j]) {
      assert PixelCells(pc)[j] == cells[j];
    }
  }

  /** Water cells of a mask lie inside every grid of the mask's shape. */
  lemma WaterInside<T>(landtype: seq<seq<int>>, grid: seq<seq<T>>, width: nat, cells: seq<Cell>)
    requires |grid| == |landtype| && Rectangular(landtype, width) && Rectangular(grid, width)
    requires forall j :: 0 <= j < |cells| ==> IsWater(landtype, cells[j])
    ensures Inside(grid, cells)
    ensures forall j :: 0 <= j < |cells| ==> cells[j].pixel < width
  {
  }

  /** For a convertible GDEM file, the water cells lie inside every decimated grid. */
  lemma CellsInside(gdem: GdemFile, k: nat)
    requires k >= 1 && Convertible(gdem, k)
    ensures var cells := GridWater(Decimate(gdem.landtype, k));
      && Inside(Decimate(gdem.elevation, k), cells)
      && Inside(Decimate(gdem.latitude, k), cells)
      && Inside(Decimate(gdem.longitude, k), cells)
      && (forall j :: 0 <= j < |cells| ==> cells[j].pixel < |gdem.crossTrack|)
  {
    var landtype := Decimate(gdem.landtype, k);
    var cells := GridWater(landtype);
    WaterInside(landtype, Decimate(gdem.elevation, k), |gdem.crossTrack|, cells);
    WaterInside(landtype, Decimate(gdem.latitude, k), |gdem.crossTrack|, cells);
    WaterInside(landtype, Decimate(gdem.longitude, k), |gdem.crossTrack|, cells);
  }

  /** What `MakePixcFromGdem` returns for a convertible file, spelled out. */
  lemma Unfold(gdem: GdemFile, donor: GlobalAttributes, k: nat)
    requires k >= 1 && Convertible(gdem, k)
    ensures var landtype := Decimate(gdem.landtype, k);
      var cells := GridWater(landtype);
      && Inside(Decimate(gdem.elevation, k), cells)
      && Inside(Decimate(gdem.latitude, k), cells)
      && Inside(Decimate(gdem.longitude, k), cells)
      && (forall j :: 0 <= j < |cells| ==> cells[j].pixel < |gdem.crossTrack|)
      && MakePixcFromGdem(gdem, donor, k).value
         == Repack(cells, Decimate(gdem.elevation, k), Decimate(gdem.latitude, k), Decimate(gdem.longitude, k),
                   gdem.crossTrack, Area(gdem.groundSpacing, gdem.azimuthSpacing, k), k as real,
                   donor.(description := GdemDescription, nrPixels := |gdem.crossTrack|, nrLines := |landtype|))
  {
    CellsInside(gdem, k);
    var landtype := Decimate(gdem.landtype, k);
    var cells := GridWater(landtype);
    var attributes := donor.(description := GdemDescription, nrPixels := |gdem.crossTrack|, nrLines := |landtype|);
    var area := Area(gdem.groundSpacing, gdem.azimuthSpacing, k);
    assert MakePixcFromGdem(gdem, donor, k)
      == Ok(Repack(cells, Decimate(gdem.elevation, k), Decimate(gdem.latitude, k), Decimate(gdem.longitude, k),
                   gdem.crossTrack, area, k as real, attributes));
  }

  /**
   * Every retained pixel is remapped to interior water with full confidence,
   * counts `k` rare looks, covers `ground_spacing * azimuth_spacing * k`, and
   * takes its azimuth index as its illumination time.
   */
  lemma ConstantFields(gdem: GdemFile, donor: GlobalAttributes, k: nat)
    requires MakePixcFromGdem(gdem, donor, k).Ok?
    ensures var pc := MakePixcFromGdem(gdem, donor, k).value;
      forall j :: 0 <= j < Size(pc) ==>
        && pc.classification[j] == InteriorWater
        && pc.continuousClassification[j] == 1.0
        && pc.numRareLooks[j] == k as real
        && pc.pixelArea[j] == Area(gdem.groundSpacing, gdem.azimuthSpacing, k)
        && pc.illuminationTime[j] == pc.azimuthIndex[j]
  {
    Unfold(gdem, donor, k);
    var landtype := Decimate(gdem.landtype, k);
    RepackConstants(GridWater(landtype), Decimate(gdem.elevation, k), Decimate(gdem.latitude, k),
                    Decimate(gdem.longitude, k), gdem.crossTrack,
                    Area(gdem.groundSpacing, gdem.azimuthSpacing, k), k as real,
                    donor.(description := GdemDescription, nrPixels := |gdem.crossTrack|, nrLines := |landtype|));
  }

  /**
   * Pixel `j` sits on a water cell of the decimated grid, inside the grid the
   * global attributes describe, and carries that cell's height, latitude,
   * longitude and cross-track distance.
   */
  lemma PixelsAreWaterCells(gdem: GdemFile, donor: GlobalAttributes, k: nat)
    requires MakePixcFromGdem(gdem, donor, k).Ok?
    ensures var pc := MakePixcFromGdem(gdem, donor, k).value;
      forall j :: 0 <= j < Size(pc) ==>
        var a := pc.azimuthIndex[j];
        var p := pc.rangeIndex[j];
        && a < pc.attributes.nrLines
        && p < pc.attributes.nrPixels
        && Decimate(gdem.landtype, k)[a][p] == WaterClass
        && pc.height[j] == Decimate(gdem.elevation, k)[a][p]
        && pc.latitude[j] == Decimate(gdem.latitude, k)[a][p]
        && pc.longitude[j] == Decimate(gdem.longitude, k)[a][p]
        && pc.crossTrack[j] == gdem.crossTrack[p]
  {
    Unfold(gdem, donor, k);
    var pc := MakePixcFromGdem(gdem, donor, k).value;
    var landtype := Decimate(gdem.landtype, k);
    var cells := GridWater(landtype);
    RepackValues(cells, Decimate(gdem.elevation, k), Decimate(gdem.latitude, k), Decimate(gdem.longitude, k),
                 gdem.crossTrack, Area(gdem.groundSpacing, gdem.azimuthSpacing, k), k as real,
                 donor.(description := GdemDescription, nrPixels := |gdem.crossTrack|, nrLines := |landtype|));
    forall j | 0 <= j < Size(pc) ensures Decimate(gdem.landtype, k)[cells[j].line][cells[j].pixel] == WaterClass {
      assert IsWater(landtype, cells[j]);
    }
  }

  /**
   * In the undecimated GDEM grid, pixel `j` comes from row
   * `Stride(azimuth_index, k)`, which is `azimuth_index * k`
   * (`Grid.StrideIsProduct`): that cell is water and holds the pixel's
   * height, latitude and longitude.
   */
  lemma PixelSourceCell(gdem: GdemFile, donor: GlobalAttributes, k: nat, j: nat)
    requires MakePixcFromGdem(gdem, donor, k).Ok?
    requires j < Size(MakePixcFromGdem(gdem, donor, k).value)
    ensures var pc := MakePixcFromGdem(gdem, donor, k).value;
      var row := Stride(pc.azimuthIndex[j], k);
      var p := pc.rangeIndex[j];
      && row < |gdem.landtype|
      && p < |gdem.landtype[row]|
      && gdem.landtype[row][p] == WaterClass
      && row < |gdem.elevation| && p < |gdem.elevation[row]| && pc.height[j] == gdem.elevation[row][p]
      && row < |gdem.latitude| && p < |gdem.latitude[row]| && pc.latitude[j] == gdem.latitude[row][p]
      && row < |gdem.longitude| && p < |gdem.longitude[row]| && pc.longitude[j] == gdem.longitude[row][p]
  {
    PixelsAreWaterCells(gdem, donor, k);
    var pc := MakePixcFromGdem(gdem, donor, k).value;
    var a := pc.azimuthIndex[j];
    assert Decimate(gdem.landtype, k)[a] == gdem.landtype[Stride(a, k)];
    assert Decimate(gdem.elevation, k)[a] == gdem.elevation[Stride(a, k)];
    assert Decimate(gdem.latitude, k)[a] == gdem.latitude[Stride(a, k)];
    assert Decimate(gdem.longitude, k)[a] == gdem.longitude[Stride(a, k)];
  }

  /** Pixels come in strictly increasing (azimuth, range) order, so no cell appears twice. */
  lemma PixelsInRowMajorOrder(gdem: GdemFile, donor: GlobalAttributes, k: nat)
    requires MakePixcFromGdem(gdem, donor, k).Ok?
    ensures var pc := MakePixcFromGdem(gdem, donor, k).value;
      forall i, j :: 0 <= i < j < Size(pc) ==>
        Precedes(Cell(pc.azimuthIndex[i], pc.rangeIndex[i]), Cell(pc.azimuthIndex[j], pc.rangeIndex[j]))
  {
    var pc := MakePixcFromGdem(gdem, donor, k).value;
    var cells := PixelCells(pc);
    assert RowMajorSorted(cells);
    forall i, j | 0 <= i < j < Size(pc)
      ensures Precedes(Cell(pc.azimuthIndex[i], pc.rangeIndex[i]), Cell(pc.azimuthIndex[j], pc.rangeIndex[j]))
    {
      assert cells[i] == Cell(pc.azimuthIndex[i], pc.rangeIndex[i]);
      assert cells[j] == Cell(pc.azimuthIndex[j], pc.rangeIndex[j]);
    }
  }

  /** Every water cell of the decimated grid becomes a pixel. */
  lemma EveryWaterCellRetained(gdem: GdemFile, donor: GlobalAttributes, k: nat, a: nat, p: nat)
    requires MakePixcFromGdem(gdem, donor, k).Ok?
    requires a < |Decimate(gdem.landtype, k)| && p < |gdem.crossTrack|
    requires Decimate(gdem.landtype, k)[a][p] == WaterClass
    ensures var pc := MakePixcFromGdem(gdem, donor, k).value;
      exists j :: 0 <= j < Size(pc) && pc.azimuthIndex[j] == a && pc.rangeIndex[j] == p
  {
    var pc := MakePixcFromGdem(gdem, donor, k).value;
    var landtype := Decimate(gdem.landtype, k);
    GridWaterComplete(landtype, a, p);
    var j :| 0 <= j < |PixelCells(pc)| && PixelCells(pc)[j] == Cell(a, p);
    assert pc.azimuthIndex[j] == a && pc.rangeIndex[j] == p;
  }

  /**
   * A conformable grid whose kept rows hold no water converts to an empty
   * cloud, not to an error; water in the rows the decimation drops does not
   * matter.
   */
  lemma NoWaterGivesEmptyCloud(gdem: GdemFile, donor: GlobalAttributes, k: nat)
    requires k >= 1 && Convertible(gdem, k)
    requires forall a, p :: 0 <= a < |Decimate(gdem.landtype, k)| && 0 <= p < |Decimate(gdem.landtype, k)[a]|
               ==> Decimate(gdem.landtype, k)[a][p] != WaterClass
    ensures MakePixcFromGdem(gdem, donor, k).Ok?
    ensures Size(MakePixcFromGdem(gdem, donor, k).value) == 0
  {
    NoWaterNoCells(Decimate(gdem.landtype, k));
  }

  /** A grid without water has no water cells. */
  lemma NoWaterNoCells(rows: seq<seq<int>>)
    requires forall a, p :: 0 <= a < |rows| && 0 <= p < |rows[a]| ==> rows[a][p] != WaterClass
    ensures GridWater(rows) == []
  {
  }
}

=== FILE: grid.dfy ===
/**
 * Row-major grids as sequences of rows, the azimuth decimation
 * `grid[::k, :]` and the boolean-mask selection `grid[landtype == 1]`
 * that the ground-truth converter is built from.
 */
module Grid {

  /** The class id of water cells in a ground-truth `landtype` grid. */
  const WaterClass := 1

  /** A grid position: `line` is the azimuth (row) index, `pixel` the range (column) index. */
  datatype Cell = Cell(line: nat, pixel: nat)

  /** Strict row-major (lexicographic) order on cells, the order numpy flattens a 2-D array in. */
  predicate Precedes(x: Cell, y: Cell)
  {
    x.line < y.line || (x.line == y.line && x.pixel < y.pixel)
  }

  /** Every row of `rows` has exactly `width` entries. */
  predicate Rectangular<T>(rows: seq<seq<T>>, width: nat)
  {
    forall a :: 0 <= a < |rows| ==> |rows[a]| == width
  }

  /** Multiplication by a positive factor is monotone. */
  lemma MulMonotone(a: int, b: int, k: int)
    requires a <= b && k >= 0
    ensures a * k <= b * k
  {
    assert b * k - a * k == (b - a) * k;
  }

  /** The Euclidean quotient is the unique `q` with `q * k <= m < q * k + k`. */
  lemma DivUnique(m: int, k: int, q: int)
    requires k > 0
    requires q * k <= m < q * k + k
    ensures m / k == q
  {
    var q' := m / k;
    assert m == q' * k + m % k && 0 <= m % k < k;
    assert (q' + 1) * k == q' * k + k;
    assert (q + 1) * k == q * k + k;
    if q' < q {
      MulMonotone(q' + 1, q, k);
    } else if q' > q {
      MulMonotone(q + 1, q', k);
    }
  }

  /**
   * The index of the `i`-th row kept by a stride-`k` slice, as repeated
   * addition; `StrideIsProduct` shows it is `i * k`.
   */
  function Stride(i: nat, k: nat): nat
  {
    if i == 0 then 0 else Stride(i - 1, k) + k
  }

  /** The `i`-th row a stride-`k` slice keeps is row `i * k`. */
  lemma {:induction false} StrideIsProduct(i: nat, k: nat)
    ensures Stride(i, k) == i * k
  {
    if i > 0 {
      StrideIsProduct(i - 1, k);
      assert (i - 1) * k + k == i * k;
    }
  }

  /**
   * `rows[::k]`: rows 0, k, 2k, ... of `rows`; the i-th row kept is row
   * `Stride(i, k)` (that is, `i * k`) of the original, and only an empty
   * grid decimates to nothing.
   */
  function Decimate<T>(rows: seq<T>, k: nat): (d: seq<T>)
    requires k >= 1
    ensures |rows| == 0 <==> |d| == 0
    ensures forall i :: 0 <= i < |d| ==> Stride(i, k) < |rows| && d[i] == rows[Stride(i, k)]
    decreases |rows|
  {
    if |rows| == 0 then []
    else if |rows| <= k then [rows[0]]
    else
      var tail := Decimate(rows[k..], k);
      var d := [rows[0]] + tail;
      assert forall i :: 1 <= i < |d| ==> Stride(i, k) < |rows| && d[i] == rows[Stride(i, k)] by {
        forall i | 1 <= i < |d| ensures Stride(i, k) < |rows| && d[i] == rows[Stride(i, k)] {
          assert d[i] == tail[i - 1];
          assert Stride(i, k) == Stride(i - 1, k) + k;
        }
      }
      d
  }

  /** Row `i` of `rows[::k]` is row `i * k` of `rows`. */
  lemma DecimateRow<T>(rows: seq<T>, k: nat, i: nat)
    requires k >= 1 && i < |Decimate(rows, k)|
    ensures i * k < |rows| && Decimate(rows, k)[i] == rows[i * k]
  {
    StrideIsProduct(i, k);
  }

  /**
   * `rows[::k]` keeps ceil(|rows| / k) rows: the last kept row lies within
   * the final stride.
   */
  lemma {:induction false} DecimateStrides<T>(rows: seq<T>, k: nat)
    requires k >= 1
    ensures var n := |Decimate(rows, k)|; n > 0 ==> (n - 1) * k < |rows| <= n * k
    decreases |rows|
  {
    if |rows| > k {
      DecimateStrides(rows[k..], k);
      var t := |Decimate(rows[k..], k)|;
      assert |Decimate(rows, k)| == t + 1;
      assert t * k + k == (t + 1) * k;
    }
  }

  /** The number of rows `rows[::k]` keeps is `(|rows| + k - 1) / k`. */
  lemma DecimateLength<T>(rows: seq<T>, k: nat)
    requires k >= 1
    ensures |Decimate(rows, k)| == (|rows| + k - 1) / k
  {
    var n := |Decimate(rows, k)|;
    DecimateStrides(rows, k);
    if n == 0 {
      DivUnique(|rows| + k - 1, k, 0);
    } else {
      assert (n - 1) * k + k == n * k;
      DivUnique(|rows| + k - 1, k, n);
    }
  }

  /** Decimation keeps every row whole, so it keeps a grid rectangular with the same width. */
  lemma DecimatePreservesWidth<T>(rows: seq<seq<T>>, k: nat, width: nat)
    requires k >= 1
    requires Rectangular(rows, width)
    ensures Rectangular(Decimate(rows, k), width)
  {
  }

  /** The number of water cells of a row: an independent count, through its multiset. */
  function RowWaterCount(row: seq<int>): nat
  {
    multiset(row)[WaterClass]
  }

  /** The number of water cells of a grid, row by row. */
  function MaskCount(rows: seq<seq<int>>): nat
    decreases |rows|
  {
    if rows == [] then 0
    else MaskCount(rows[..|rows| - 1]) + RowWaterCount(rows[|rows| - 1])
  }

  /** The cells are in strictly increasing row-major order. */
  predicate RowMajorSorted(cs: seq<Cell>)
  {
    forall i, j :: 0 <= i < j < |cs| ==> Precedes(cs[i], cs[j])
  }

  /** Sorted cells of earlier lines followed by sorted cells of line `n` stay sorted. */
  lemma SortedAppend(earlier: seq<Cell>, current: seq<Cell>, n: nat)
    requires RowMajorSorted(earlier)
    requires forall j :: 0 <= j < |earlier| ==> earlier[j].line < n
    requires forall j :: 0 <= j < |current| ==> current[j].line == n
    requires forall i, j :: 0 <= i < j < |current| ==> current[i].pixel < current[j].pixel
    ensures RowMajorSorted(earlier + current)
  {
    var cs := earlier + current;
    forall i, j | 0 <= i < j < |cs| ensures Precedes(cs[i], cs[j]) {
      if j < |earlier| {
        assert cs[i] == earlier[i] && cs[j] == earlier[j];
      } else if i < |earlier| {
        assert cs[i] == earlier[i] && cs[j] == current[j - |earlier|];
      } else {
        assert cs[i] == current[i - |earlier|] && cs[j] == current[j - |earlier|];
      }
    }
  }

  /** The cell `c` lies inside `rows` and holds water. */
  predicate IsWater(rows: seq<seq<int>>, c: Cell)
  {
    c.line < |rows| && c.pixel < |rows[c.line]| && rows[c.line][c.pixel] == WaterClass
  }

  /**
   * The water cells of row `row` (azimuth index `line`), left to right: only
   * positions holding water, in increasing range order, as many as the row
   * holds (so each of them, by `RowWaterComplete`).
   */
  function RowWater(row: seq<int>, line: nat): (cs: seq<Cell>)
    ensures forall j :: 0 <= j < |cs| ==> cs[j].line == line && cs[j].pixel < |row| && row[cs[j].pixel] == WaterClass
    ensures forall i, j :: 0 <= i < j < |cs| ==> cs[i].pixel < cs[j].pixel
    ensures |cs| == RowWaterCount(row)
    decreases |row|
  {
    if row == [] then []
    else
      var n := |row| - 1;
      var init := row[..n];
      assert row == init + [row[n]];
      var last := if row[n] == WaterClass then [Cell(line, n)] else [];
      RowWater(init, line) + last
  }

  /** Water cells of the first rows and of the last row are water cells of the whole grid. */
  lemma WaterAppend(rows: seq<seq<int>>, n: nat, earlier: seq<Cell>, current: seq<Cell>)
    requires |rows| == n + 1
    requires forall j :: 0 <= j < |earlier| ==> IsWater(rows[..n], earlier[j])
    requires forall j :: 0 <= j < |current| ==> current[j].line == n && IsWater(rows, current[j])
    ensures forall j :: 0 <= j < |earlier + current| ==> IsWater(rows, (earlier + current)[j])
  {
    var cs := earlier + current;
    forall j | 0 <= j < |cs| ensures IsWater(rows, cs[j]) {
      if j < |earlier| {
        assert IsWater(rows[..n], earlier[j]);
        assert rows[..n][earlier[j].line] == rows[earlier[j].line];
      } else {
        assert cs[j] == current[j - |earlier|];
      }
    }
  }

  /**
   * `grid[mask]` positions for `mask = (grid == 1)`: only water cells, in
   * strictly increasing row-major order, as many as the grid holds (so each
   * of them, by `GridWaterComplete`).
   */
  function GridWater(rows: seq<seq<int>>): (cs: seq<Cell>)
    ensures forall j :: 0 <= j < |cs| ==> IsWater(rows, cs[j])
    ensures RowMajorSorted(cs)
    ensures |cs| == MaskCount(rows)
    decreases |rows|
  {
    if rows == [] then []
    else
      var n := |rows| - 1;
      var init := rows[..n];
      var earlier := GridWater(init);
      var current := RowWater(rows[n], n);
      var cs := earlier + current;
      assert forall j :: 0 <= j < |earlier| ==> earlier[j].line < n;
      WaterAppend(rows, n, earlier, current);
      SortedAppend(earlier, current, n);
      cs
  }

  /** Every water position of a row is among its water cells. */
  lemma {:induction false} RowWaterComplete(row: seq<int>, line: nat, p: nat)
    requires p < |row| && row[p] == WaterClass
    ensures Cell(line, p) in RowWater(row, line)
    decreases |row|
  {
    var n := |row| - 1;
    if p < n {
      RowWaterComplete(row[..n], line, p);
    } else {
      assert RowWater(row, line)[|RowWater(row, line)| - 1] == Cell(line, p);
    }
  }

  /** Every water cell of a grid is among the cells the mask selects. */
  lemma {:induction false} GridWaterComplete(rows: seq<seq<int>>, a: nat, p: nat)
    requires a < |rows| && p < |rows[a]| && rows[a][p] == WaterClass
    ensures Cell(a, p) in GridWater(rows)
    decreases |rows|
  {
    var n := |rows| - 1;
    var earlier := GridWater(rows[..n]);
    var current := RowWater(rows[n], n);
    assert GridWater(rows) == earlier + current;
    if a < n {
      assert rows[..n][a] == rows[a];
      GridWaterComplete(rows[..n], a, p);
    } else {
      RowWaterComplete(rows[n], n, p);
    }
  }
}

=== FILE: orchestrator.dfy ===
/**
 * The batch driver: for each job descriptor in turn, derive the tile's
 * output paths, stop early when the outputs already exist, optionally
 * synthesise the ground-truth pixel cloud, run the external river
 * extraction, export shapefiles and write the chained annotation file.
 *
 * The driver is a pure function from its inputs to the trace of actions it
 * performs and the way the run ends. The file system, the environment, the
 * external process and the netCDF readers are inputs (`Environment`).
 */
module Orchestrator {
  import opened Basics
  import opened Text
  import opened Converter
  import opened TileNaming
  import Annotation

  /** The command-line switches. */
  datatype Flags = Flags(nogdem: bool, noshp: bool, force: bool)

  /** The command line: output directory, extraction parameter file, optional RiverObs location, switches. */
  datatype Config = Config(outputDir: string, parameterFile: string, riverobsPath: Option<string>, flags: Flags)

  /** A discovered job descriptor: its path and the key/value parameters read from it. */
  datatype Job = Job(descriptor: string, params: map<string, string>)

  /** The columns and layer of one shapefile export. */
  datatype Layer = Layer(latField: string, lonField: string, fields: seq<string>, group: Option<string>)

  /** What the driver does to the outside world, in order. */
  datatype Action =
    | EnsureDir(dir: string)
    | WritePixelCloud(path: string, cloud: PixelCloud)
    | Execute(call: RiverobsCall)
    | ExportShapefile(source: string, target: string, layer: Layer)
    | WriteAnnotation(path: string, text: string)

  /**
   * What the driver cannot compute itself. Whether a file exists and what
   * exit code a command returns may depend on the actions performed before
   * the question is asked (`history`); the extraction's exit code is given
   * per call, whose command line is a function of it; `absPath` is `os.path.abspath`,
   * `riverobsHome` the `RIVEROBS` environment variable, and the two readers
   * stand for the netCDF files named by a path.
   */
  datatype Environment = Environment(
    isFile: (seq<Action>, string) -> bool,
    exitCode: (seq<Action>, RiverobsCall) -> int,
    absPath: string -> string,
    riverobsHome: Option<string>,
    readGdem: string -> GdemFile,
    readAttributes: string -> GlobalAttributes)

  /** Why a run is aborted by an exception. */
  datatype Failure =
    | BadDescriptorName(nameError: NameError)
    | MissingParameter(key: string)
    | MissingEnvironment(variable: string)
    | ConversionFailed(convertError: ConvertError)
    | ProcessFailed(code: int, call: RiverobsCall)

  /** How a job (or the run) ends: normally, by the early return of the existing-output check, or by an exception. */
  datatype Ending = Done | Exited | Raised(failure: Failure)

  datatype Outcome = Outcome(actions: seq<Action>, ending: Ending)

  const PixcKey := "l2pixc file"
  const GdemKey := "true GDEM file"
  /** The azimuth decimation applied to the ground-truth grids. */
  const SubsampleFactor := 2

  const NodeLayer := Layer("latitude", "longitude", ["time", "height", "width", "area_total", "node_id", "reach_id"], Some("nodes"))
  const ReachLayer := Layer("p_latitud", "p_longitud", ["reach_id", "width", "height", "slope", "area_total"], Some("reaches"))
  const PixcvecLayer := Layer("latitude_vectorproc", "longitude_vectorproc",
    ["height_vectorproc", "node_index", "reach_index", "azimuth_index", "range_index"], None)

  /** The observed-branch directory, and the reference-branch one when that branch is enabled. */
  function MakeDirectories(paths: OutputPaths): (actions: seq<Action>)
    ensures forall i :: 0 <= i < |actions| ==> actions[i].EnsureDir?
    ensures |actions| == if paths.gdemDir.Some? then 2 else 1
    ensures actions[0] == EnsureDir(paths.riverDir)
    ensures paths.gdemDir.Some? ==> actions[1] == EnsureDir(paths.gdemDir.value)
  {
    [EnsureDir(paths.riverDir)] + (if paths.gdemDir.Some? then [EnsureDir(paths.gdemDir.value)] else [])
  }

  /** Both observed-branch outputs exist and overwriting was not forced: the run returns early. */
  predicate OutputsExist(flags: Flags, env: Environment, history: seq<Action>, paths: OutputPaths)
  {
    !flags.force && env.isFile(history, paths.rivertile) && env.isFile(history, paths.pixcvec)
  }

  /** The conversion of a ground-truth grid file, with a pixel-cloud file as attribute donor. */
  type Conversion = (string, string) -> Result<PixelCloud, ConvertError>

  /** The conversion the driver performs: the files as read, decimated by `SubsampleFactor`. */
  function ConvertFiles(env: Environment): Conversion
  {
    (gdemFile: string, donorFile: string) => MakePixcFromGdem(env.readGdem(gdemFile), env.readAttributes(donorFile), SubsampleFactor)
  }

  /**
   * The reference branch: the ground-truth grid named by the descriptor is
   * converted, with the observed pixel cloud as attribute donor, and written
   * to the reference-branch pixel-cloud path. Nothing happens when the
   * branch is disabled (no such path).
   */
  function Synthesis(convert: Conversion, job: Job, pixcFile: string, target: Option<string>): (r: Result<seq<Action>, Failure>)
    ensures target.None? ==> r == Ok([])
    ensures r.Ok? && target.Some? ==> |r.value| == 1 && r.value[0].WritePixelCloud? && r.value[0].path == target.value
    ensures r.Err? ==> target.Some? && (r.error.MissingParameter? || r.error.ConversionFailed?)
    ensures r.Ok? ==> Steps(r.value) == if target.Some? then [Synthesize] else []
    ensures target.Some? && GdemKey !in job.params ==> r == Err(MissingParameter(GdemKey))
    ensures target.Some? && GdemKey in job.params ==>
      var converted := convert(job.params[GdemKey], pixcFile);
      && (r.Ok? <==> converted.Ok?)
      && (r.Ok? ==> r.value == [WritePixelCloud(target.value, converted.value)])
      && (r.Err? ==> r.error == ConversionFailed(converted.error))
  {
    match target
    case None => Ok([])
    case Some(out) =>
      if GdemKey !in job.params then Err(MissingParameter(GdemKey))
      else
        match convert(job.params[GdemKey], pixcFile)
        case Err(e) => Err(ConversionFailed(e))
        case Ok(cloud) => Ok([WritePixelCloud(out, cloud)])
  }

  /** The RiverObs location: the command-line option when given, else the `RIVEROBS` environment variable. */
  function RiverobsHome(cfg: Config, env: Environment): Option<string>
  {
    if cfg.riverobsPath.Some? then cfg.riverobsPath else env.riverobsHome
  }

  /** `<home>/src/bin/swot_pixc2rivertile.py`. */
  function ExtractionProgram(home: string): string
  {
    PathJoinAll(home, ["src", "bin", "swot_pixc2rivertile.py"])
  }

  /**
   * Wherever RiverObs is installed, the program run is its
   * `swot_pixc2rivertile.py`, in the directory `src/bin` below the
   * installation; going up three directories gives the installation back
   * when its path does not end in `/`.
   */
  lemma ExtractionProgramName(home: string)
    ensures Basename(ExtractionProgram(home)) == "swot_pixc2rivertile.py"
    ensures Dirname(ExtractionProgram(home)) == PathJoin(PathJoin(home, "src"), "bin")
    ensures Basename(Dirname(ExtractionProgram(home))) == "bin"
    ensures Basename(Dirname(Dirname(ExtractionProgram(home)))) == "src"
    ensures home == [] || home[|home| - 1] != '/' ==>
      Dirname(Dirname(Dirname(ExtractionProgram(home)))) == home
  {
    BasenameOfPathJoinAll(home, ["src", "bin", "swot_pixc2rivertile.py"]);
    var src := PathJoin(home, "src");
    var bin := PathJoin(src, "bin");
    assert ExtractionProgram(home) == PathJoin(bin, "swot_pixc2rivertile.py");
    DirnameOfPathJoin(bin, "swot_pixc2rivertile.py");
    DirnameOfPathJoin(src, "bin");
    BasenameOfPathJoin(src, "bin");
    BasenameOfPathJoin(home, "src");
    if home == [] || home[|home| - 1] != '/' {
      DirnameOfPathJoin(home, "src");
    }
  }

  /**
   * One run of the RiverObs river extraction: the installation it is run
   * from, the observed pixel cloud, the two output paths and the
   * parameter file.
   */
  datatype RiverobsCall = RiverobsCall(home: string, pixcFile: string, rivertile: string, pixcvec: string, parameterFile: string)

  /** The line handed to the shell: program and arguments separated by single spaces. */
  function CommandLine(c: RiverobsCall): string
  {
    Join([ExtractionProgram(c.home), c.pixcFile, c.rivertile, c.pixcvec, c.parameterFile], ' ')
  }

  /**
   * When no path contains a space, the shell splits the command line back
   * into the program and its four arguments, in order.
   */
  lemma CommandLineWords(c: RiverobsCall)
    requires ' ' !in c.home && ' ' !in c.pixcFile && ' ' !in c.rivertile
    requires ' ' !in c.pixcvec && ' ' !in c.parameterFile
    ensures Split(CommandLine(c), ' ') == [ExtractionProgram(c.home), c.pixcFile, c.rivertile, c.pixcvec, c.parameterFile]
  {
    var parts := ["src", "bin", "swot_pixc2rivertile.py"];
    assert forall i :: 0 <= i < |parts| ==> ' ' !in parts[i];
    PathJoinAllAvoids(c.home, parts, ' ');
    SplitJoin([ExtractionProgram(c.home), c.pixcFile, c.rivertile, c.pixcvec, c.parameterFile], ' ');
  }

  /**
   * The three shapefile exports: nodes and reaches of the river product,
   * and the pixel-cloud vector product, each written next to its source
   * with the `.nc` extension replaced.
   */
  function ShapefileExports(rivertile: string, pixcvec: string): (actions: seq<Action>)
    requires EndsWith(rivertile, ".nc") && EndsWith(pixcvec, ".nc")
    ensures |actions| == 3 && forall i :: 0 <= i < 3 ==> actions[i].ExportShapefile?
    ensures actions[0].source == rivertile && actions[1].source == rivertile && actions[2].source == pixcvec
    ensures Steps(actions) == [Export, Export, Export]
  {
    [ExportShapefile(rivertile, SwapSuffix(rivertile, ".nc", "_node.shp"), NodeLayer),
     ExportShapefile(rivertile, SwapSuffix(rivertile, ".nc", "_reach.shp"), ReachLayer),
     ExportShapefile(pixcvec, SwapSuffix(pixcvec, ".nc", ".shp"), PixcvecLayer)]
  }

  /**
   * Each corrected export target keeps its source's path up to the
   * extension and ends in the suffix of its kind, and each export carries
   * the layer of its kind: the `_node.shp` export the `nodes` group with
   * `latitude`/`longitude`, the `_reach.shp` export the `reaches` group with
   * `p_latitud`/`p_longitud`, the `.shp` export of the vector output no group
   * with `latitude_vectorproc`/`longitude_vectorproc`.
   */
  lemma ShapefileTargets(rivertile: string, pixcvec: string)
    requires EndsWith(rivertile, ".nc") && EndsWith(pixcvec, ".nc")
    ensures var actions := ShapefileExports(rivertile, pixcvec);
      && EndsWith(actions[0].target, "_node.shp")
      && EndsWith(actions[1].target, "_reach.shp")
      && EndsWith(actions[2].target, ".shp")
      && forall i :: 0 <= i < 3 ==> SameStem(actions[i].source, actions[i].target)
    ensures var actions := ShapefileExports(rivertile, pixcvec);
      && actions[0].layer == Layer("latitude", "longitude",
           ["time", "height", "width", "area_total", "node_id", "reach_id"], Some("nodes"))
      && actions[1].layer == Layer("p_latitud", "p_longitud",
           ["reach_id", "width", "height", "slope", "area_total"], Some("reaches"))
      && actions[2].layer == Layer("latitude_vectorproc", "longitude_vectorproc",
           ["height_vectorproc", "node_index", "reach_index", "azimuth_index", "range_index"], None)
  {
  }

  /** The exports as written carry the same layers, in the same order, as the corrected ones. */
  lemma AsWrittenLayers(rivertile: string, pixcvec: string)
    ensures var actions := ShapefileExportsAsWritten(rivertile, pixcvec);
      && actions[0].layer == Layer("latitude", "longitude",
           ["time", "height", "width", "area_total", "node_id", "reach_id"], Some("nodes"))
      && actions[1].layer == Layer("p_latitud", "p_longitud",
           ["reach_id", "width", "height", "slope", "area_total"], Some("reaches"))
      && actions[2].layer == Layer("latitude_vectorproc", "longitude_vectorproc",
           ["height_vectorproc", "node_index", "reach_index", "azimuth_index", "range_index"], None)
  {
  }

  /** `target` keeps everything of the `.nc` file `source` but its extension. */
  predicate SameStem(source: string, target: string)
  {
    |source| >= 3 && |target| >= |source| - 3 && source[..|source| - 3] == target[..|source| - 3]
  }

  /** The annotation the job leaves for the next stage. */
  function AnnotationAction(pixcFile: string, paths: OutputPaths): Action
  {
    WriteAnnotation(paths.annotation, Annotation.AnnotationText(pixcFile, paths.gdemPixc, paths.pixcvec, paths.pixcvecGdem))
  }

  /** `a` is the last of `actions`. */
  predicate LastAction(actions: seq<Action>, a: Action)
  {
    |actions| >= 1 && actions[|actions| - 1] == a
  }

  /** `actions` ends with `tail`. */
  predicate SuffixOf(tail: seq<Action>, actions: seq<Action>)
  {
    |tail| <= |actions| && actions[|actions| - |tail|..] == tail
  }

  /** The job was aborted because the extraction `call` exited with a non-zero code. */
  predicate ExtractionFailed(ending: Ending)
  {
    ending.Raised? && ending.failure.ProcessFailed?
  }

  /**
   * One job, given the actions already performed in the run. The
   * descriptor's name yields the tile and its output paths; the rest of
   * the job is `RunTile` with the conversion the driver performs.
   */
  function RunJob(cfg: Config, env: Environment, history: seq<Action>, job: Job): (o: Outcome)
    ensures o.ending.Exited? ==> !cfg.flags.force && forall i :: 0 <= i < |o.actions| ==> o.actions[i].EnsureDir?
    ensures o.ending.Done? ==> Steps(o.actions) == ExpectedSteps(cfg.flags, true)
    ensures ExtractionFailed(o.ending) ==>
      && Steps(o.actions) == ExpectedSteps(cfg.flags, false)
      && LastAction(o.actions, Execute(o.ending.failure.call))
      && o.ending.failure.code != 0
    ensures o.ending.Done? ==>
      && JobPaths(cfg, env, job).Some? && PixcKey in job.params
      && LastAction(o.actions, AnnotationAction(env.absPath(job.params[PixcKey]), JobPaths(cfg, env, job).value))
    // A name that does not parse raises before anything is done.
    ensures JobPaths(cfg, env, job).None? ==>
      o.actions == [] && o.ending.Raised? && o.ending.failure.BadDescriptorName?
  {
    match ParseTileId(job.descriptor)
    case Err(e) => Outcome([], Raised(BadDescriptorName(e)))
    case Ok(id) => RunTile(cfg, env, ConvertFiles(env), history, job, MakeOutputPaths(cfg.outputDir, env.absPath, cfg.flags.nogdem, id))
  }

  /**
   * A job whose tile is known: the directories are made; the observed
   * pixel cloud is looked up; the run returns early when the outputs
   * exist; otherwise the job is processed. The order of the actions holds
   * whatever the conversion computes.
   */
  function RunTile(cfg: Config, env: Environment, convert: Conversion, history: seq<Action>, job: Job, paths: OutputPaths): (o: Outcome)
    requires EndsWith(paths.rivertile, ".nc") && EndsWith(paths.pixcvec, ".nc")
    requires paths.gdemPixc.Some? <==> !cfg.flags.nogdem
    requires paths.gdemDir.Some? <==> !cfg.flags.nogdem
    ensures o.ending.Exited? ==> !cfg.flags.force && forall i :: 0 <= i < |o.actions| ==> o.actions[i].EnsureDir?
    ensures o.ending.Done? ==> Steps(o.actions) == ExpectedSteps(cfg.flags, true)
    ensures ExtractionFailed(o.ending) ==>
      && Steps(o.actions) == ExpectedSteps(cfg.flags, false)
      && LastAction(o.actions, Execute(o.ending.failure.call))
      && o.ending.failure.code != 0
    ensures o.ending.Done? ==>
      && PixcKey in job.params && LastAction(o.actions, AnnotationAction(env.absPath(job.params[PixcKey]), paths))
      && SuffixOf(Finishing(cfg.flags, env.absPath(job.params[PixcKey]), paths), o.actions)
    // A descriptor without an observed pixel cloud raises once the directories are made.
    ensures PixcKey !in job.params ==> o == Outcome(MakeDirectories(paths), Raised(MissingParameter(PixcKey)))
  {
    var dirs := MakeDirectories(paths);
    if PixcKey !in job.params then Outcome(dirs, Raised(MissingParameter(PixcKey)))
    else
      var pixcFile := env.absPath(job.params[PixcKey]);
      if OutputsExist(cfg.flags, env, history + dirs, paths) then Outcome(dirs, Exited)
      else
        var rest := Process(cfg, env, convert, history + dirs, job, pixcFile, paths);
        LastOfAppend(dirs, rest.actions);
        SuffixOfAppend(Finishing(cfg.flags, pixcFile, paths), dirs, rest.actions);
        StepsAppend(dirs, rest.actions);
        assert Steps(dirs) == DirectorySteps(cfg.flags);
        ExpectedStepsSplit(cfg.flags);
        Outcome(dirs + rest.actions, rest.ending)
  }

  /**
   * A job past the existing-output check: the reference pixel cloud is
   * synthesised unless disabled, then RiverObs is located and the
   * extraction runs.
   */
  function Process(cfg: Config, env: Environment, convert: Conversion, history: seq<Action>, job: Job, pixcFile: string, paths: OutputPaths): (o: Outcome)
    requires EndsWith(paths.rivertile, ".nc") && EndsWith(paths.pixcvec, ".nc")
    requires paths.gdemPixc.Some? <==> !cfg.flags.nogdem
    ensures !o.ending.Exited?
    ensures o.ending.Done? ==>
      && Steps(o.actions) == SynthesisSteps(cfg.flags) + ([Extract] + FinishingSteps(cfg.flags))
      && LastAction(o.actions, AnnotationAction(pixcFile, paths))
      && SuffixOf(Finishing(cfg.flags, pixcFile, paths), o.actions)
    ensures ExtractionFailed(o.ending) ==>
      && Steps(o.actions) == SynthesisSteps(cfg.flags) + [Extract]
      && LastAction(o.actions, Execute(o.ending.failure.call))
      && o.ending.failure.code != 0
    // A failed synthesis raises before anything is written.
    ensures var synth := Synthesis(convert, job, pixcFile, paths.gdemPixc);
      synth.Err? ==> o == Outcome([], Raised(synth.error))
    ensures var synth := Synthesis(convert, job, pixcFile, paths.gdemPixc);
      synth.Ok? ==> o == Located(cfg, env, history, synth.value, pixcFile, paths)
  {
    match Synthesis(convert, job, pixcFile, paths.gdemPixc)
    case Err(f) => Outcome([], Raised(f))
    case Ok(synth) => Located(cfg, env, history, synth, pixcFile, paths)
  }

  /**
   * After the synthesis actions `synth`: RiverObs is located, and the
   * extraction is run from there.
   */
  function Located(cfg: Config, env: Environment, history: seq<Action>, synth: seq<Action>, pixcFile: string, paths: OutputPaths): (o: Outcome)
    requires EndsWith(paths.rivertile, ".nc") && EndsWith(paths.pixcvec, ".nc")
    ensures !o.ending.Exited?
    ensures o.ending.Done? ==>
      && Steps(o.actions) == Steps(synth) + ([Extract] + FinishingSteps(cfg.flags))
      && LastAction(o.actions, AnnotationAction(pixcFile, paths))
      && SuffixOf(Finishing(cfg.flags, pixcFile, paths), o.actions)
    ensures ExtractionFailed(o.ending) ==>
      && Steps(o.actions) == Steps(synth) + [Extract]
      && LastAction(o.actions, Execute(o.ending.failure.call))
      && o.ending.failure.code != 0
    // Without a RiverObs location the job raises, and no extraction is run.
    ensures RiverobsHome(cfg, env).None? ==> o == Outcome(synth, Raised(MissingEnvironment("RIVEROBS")))
  {
    match RiverobsHome(cfg, env)
    case None => Outcome(synth, Raised(MissingEnvironment("RIVEROBS")))
    case Some(home) =>
      var rest := Extraction(cfg, env, history + synth, pixcFile, paths, home);
      StepsAppend(synth, rest.actions);
      LastOfAppend(synth, rest.actions);
      SuffixOfAppend(Finishing(cfg.flags, pixcFile, paths), synth, rest.actions);
      Outcome(synth + rest.actions, rest.ending)
  }

  /** With a RiverObs location, the extraction follows the synthesis, and its exit code decides how the job ends. */
  lemma LocatedCall(cfg: Config, env: Environment, history: seq<Action>, synth: seq<Action>, pixcFile: string, paths: OutputPaths)
    requires EndsWith(paths.rivertile, ".nc") && EndsWith(paths.pixcvec, ".nc")
    requires RiverobsHome(cfg, env).Some?
    ensures var o := Located(cfg, env, history, synth, pixcFile, paths);
      var call := ExtractionCall(cfg, env, pixcFile, paths, RiverobsHome(cfg, env).value);
      var code := env.exitCode(history + synth, call);
      && |o.actions| > |synth| && o.actions[..|synth|] == synth
      && o.actions[|synth|] == Execute(call)
      && (o.ending.Done? <==> code == 0)
      && (!o.ending.Done? ==> o.ending == Raised(ProcessFailed(code, call)))
  {
    var rest := Extraction(cfg, env, history + synth, pixcFile, paths, RiverobsHome(cfg, env).value);
    assert (synth + rest.actions)[..|synth|] == synth;
  }

  /** The extraction of the observed pixel cloud into the tile's river and vector outputs, with the absolute parameter file. */
  function ExtractionCall(cfg: Config, env: Environment, pixcFile: string, paths: OutputPaths, home: string): RiverobsCall
  {
    RiverobsCall(home, pixcFile, paths.rivertile, paths.pixcvec, env.absPath(cfg.parameterFile))
  }

  /**
   * The extraction run from the RiverObs installation at `home`; a
   * non-zero exit code raises, otherwise the job finishes.
   */
  function Extraction(cfg: Config, env: Environment, history: seq<Action>, pixcFile: string, paths: OutputPaths, home: string): (o: Outcome)
    requires EndsWith(paths.rivertile, ".nc") && EndsWith(paths.pixcvec, ".nc")
    ensures o.ending.Done? || ExtractionFailed(o.ending)
    ensures var call := RiverobsCall(home, pixcFile, paths.rivertile, paths.pixcvec, env.absPath(cfg.parameterFile));
      var code := env.exitCode(history, call);
      && |o.actions| >= 1 && o.actions[0] == Execute(call)
      && (o.ending.Done? <==> code == 0)
      && (!o.ending.Done? ==> o.actions == [Execute(call)] && o.ending == Raised(ProcessFailed(code, call)))
    ensures o.ending.Done? ==>
      && Steps(o.actions) == [Extract] + FinishingSteps(cfg.flags)
      && LastAction(o.actions, AnnotationAction(pixcFile, paths))
      && SuffixOf(Finishing(cfg.flags, pixcFile, paths), o.actions)
  {
    var call := ExtractionCall(cfg, env, pixcFile, paths, home);
    var code := env.exitCode(history, call);
    if code != 0 then Outcome([Execute(call)], Raised(ProcessFailed(code, call)))
    else
      var finishing := Finishing(cfg.flags, pixcFile, paths);
      StepsAppend([Execute(call)], finishing);
      Outcome([Execute(call)] + finishing, Done)
  }

  /** After a successful extraction: the shapefiles unless disabled, then the annotation. */
  function Finishing(flags: Flags, pixcFile: string, paths: OutputPaths): (actions: seq<Action>)
    requires EndsWith(paths.rivertile, ".nc") && EndsWith(paths.pixcvec, ".nc")
    ensures Steps(actions) == FinishingSteps(flags)
    ensures LastAction(actions, AnnotationAction(pixcFile, paths))
    ensures !flags.noshp ==> |actions| == 4 && actions[..3] == ShapefileExports(paths.rivertile, paths.pixcvec)
  {
    var exports := if flags.noshp then [] else ShapefileExports(paths.rivertile, paths.pixcvec);
    StepsAppend(exports, [AnnotationAction(pixcFile, paths)]);
    exports + [AnnotationAction(pixcFile, paths)]
  }

  /**
   * Jobs run one after the other, each seeing the actions of those before
   * it; the first job that does not end normally ends the whole sequence.
   */
  function Sequence(step: (seq<Action>, Job) -> Outcome, history: seq<Action>, jobs: seq<Job>): (o: Outcome)
    ensures jobs == [] ==> o == Outcome([], Done)
    decreases |jobs|
  {
    if jobs == [] then Outcome([], Done)
    else
      var first := step(history, jobs[0]);
      if !first.ending.Done? then first
      else
        var rest := Sequence(step, history + first.actions, jobs[1..]);
        Outcome(first.actions + rest.actions, rest.ending)
  }

  /** The whole run: the discovered jobs in order, as `main` loops over them. */
  function Run(cfg: Config, env: Environment, history: seq<Action>, jobs: seq<Job>): Outcome
  {
    Sequence((h, job) => RunJob(cfg, env, h, job), history, jobs)
  }

  // ---------------------------------------------------------------- the run

  /** Once a job ends the run, the jobs after it contribute nothing. */
  lemma {:induction false} SequenceStopsAtUnfinishedJob(step: (seq<Action>, Job) -> Outcome, history: seq<Action>, jobs: seq<Job>, later: seq<Job>)
    requires !Sequence(step, history, jobs).ending.Done?
    ensures Sequence(step, history, jobs + later) == Sequence(step, history, jobs)
    decreases |jobs|
  {
    assert jobs != [];
    assert (jobs + later)[0] == jobs[0] && (jobs + later)[1..] == jobs[1..] + later;
    var first := step(history, jobs[0]);
    if first.ending.Done? {
      SequenceStopsAtUnfinishedJob(step, history + first.actions, jobs[1..], later);
    }
  }

  /** A run over two batches is the first batch followed, if it finished, by the second with the first's actions behind it. */
  lemma {:induction false} SequenceAppend(step: (seq<Action>, Job) -> Outcome, history: seq<Action>, jobs: seq<Job>, later: seq<Job>)
    requires Sequence(step, history, jobs).ending.Done?
    ensures var head := Sequence(step, history, jobs);
      var tail := Sequence(step, history + head.actions, later);
      Sequence(step, history, jobs + later) == Outcome(head.actions + tail.actions, tail.ending)
    decreases |jobs|
  {
    if jobs == [] {
      assert jobs + later == later;
      assert history + [] == history;
    } else {
      var all := jobs + later;
      assert all[0] == jobs[0] && all[1..] == jobs[1..] + later;
      var first := step(history, jobs[0]);
      var h1 := history + first.actions;
      var rest := Sequence(step, h1, jobs[1..]);
      SequenceAppend(step, h1, jobs[1..], later);
      assert h1 + rest.actions == history + (first.actions + rest.actions);
      assert first.actions + (rest.actions + Sequence(step, h1 + rest.actions, later).actions)
          == (first.actions + rest.actions) + Sequence(step, h1 + rest.actions, later).actions;
    }
  }

  /**
   * A job that returns early or raises ends the run: whatever jobs follow
   * it, nothing more is done.
   */
  lemma RunStopsAtUnfinishedJob(cfg: Config, env: Environment, history: seq<Action>, jobs: seq<Job>, later: seq<Job>)
    requires !Run(cfg, env, history, jobs).ending.Done?
    ensures Run(cfg, env, history, jobs + later) == Run(cfg, env, history, jobs)
  {
    SequenceStopsAtUnfinishedJob((h, job) => RunJob(cfg, env, h, job), history, jobs, later);
  }

  /** A run of one job is that job. */
  lemma SequenceOfOne(step: (seq<Action>, Job) -> Outcome, history: seq<Action>, job: Job)
    ensures Sequence(step, history, [job]) == step(history, job)
  {
    var first := step(history, job);
    assert [job][1..] == [];
    assert first.actions + [] == first.actions;
  }

  /**
   * A run starting with `job` is that job's outcome when it does not end
   * normally, and otherwise its actions followed by the run of the rest.
   */
  lemma SequenceOfCons(step: (seq<Action>, Job) -> Outcome, history: seq<Action>, job: Job, later: seq<Job>)
    ensures var first := step(history, job);
      !first.ending.Done? ==> Sequence(step, history, [job] + later) == first
    ensures var first := step(history, job);
      var rest := Sequence(step, history + first.actions, later);
      first.ending.Done? ==> Sequence(step, history, [job] + later) == Outcome(first.actions + rest.actions, rest.ending)
  {
    assert ([job] + later)[0] == job && ([job] + later)[1..] == later;
  }

  /** The run of a single job is what `RunJob` does for it. */
  lemma RunOneJob(cfg: Config, env: Environment, history: seq<Action>, job: Job)
    ensures Run(cfg, env, history, [job]) == RunJob(cfg, env, history, job)
  {
    SequenceOfOne((h, j) => RunJob(cfg, env, h, j), history, job);
  }

  /**
   * A job that returns early at the existing-output check, or raises, ends
   * the run with its own outcome: the jobs after it do nothing.
   */
  lemma GateEndsRun(cfg: Config, env: Environment, history: seq<Action>, job: Job, later: seq<Job>)
    requires !RunJob(cfg, env, history, job).ending.Done?
    ensures Run(cfg, env, history, [job] + later) == RunJob(cfg, env, history, job)
  {
    SequenceOfCons((h, j) => RunJob(cfg, env, h, j), history, job, later);
  }

  /** After a job that finishes, the run goes on with the next job, which sees the finished job's actions. */
  lemma FinishedJobContinuesRun(cfg: Config, env: Environment, history: seq<Action>, job: Job, later: seq<Job>)
    requires RunJob(cfg, env, history, job).ending.Done?
    ensures var first := RunJob(cfg, env, history, job);
      var rest := Run(cfg, env, history + first.actions, later);
      Run(cfg, env, history, [job] + later) == Outcome(first.actions + rest.actions, rest.ending)
  {
    SequenceOfCons((h, j) => RunJob(cfg, env, h, j), history, job, later);
  }

  /** With overwriting forced, the existing-output check never ends a run. */
  lemma {:induction false} ForcedRunNeverExits(cfg: Config, env: Environment, history: seq<Action>, jobs: seq<Job>)
    requires cfg.flags.force
    ensures !Run(cfg, env, history, jobs).ending.Exited?
    decreases |jobs|
  {
    if jobs != [] {
      var first := RunJob(cfg, env, history, jobs[0]);
      if first.ending.Done? {
        ForcedRunNeverExits(cfg, env, history + first.actions, jobs[1..]);
      }
    }
  }

  // ---------------------------------------------------------------- one job

  /** The tile's output paths when the descriptor's name parses. */
  function JobPaths(cfg: Config, env: Environment, job: Job): Option<OutputPaths>
  {
    match ParseTileId(job.descriptor)
    case Err(_) => None
    case Ok(id) => Some(MakeOutputPaths(cfg.outputDir, env.absPath, cfg.flags.nogdem, id))
  }

  /**
   * The run returns early for a job exactly when its name parses, it names
   * an observed pixel cloud, overwriting was not forced and both
   * observed-branch outputs exist; it has then only made the directories.
   */
  lemma EarlyReturnIff(cfg: Config, env: Environment, history: seq<Action>, job: Job)
    ensures var o := RunJob(cfg, env, history, job);
      var paths := JobPaths(cfg, env, job);
      o.ending.Exited? <==>
        paths.Some? && PixcKey in job.params && !cfg.flags.force
        && env.isFile(history + MakeDirectories(paths.value), paths.value.rivertile)
        && env.isFile(history + MakeDirectories(paths.value), paths.value.pixcvec)
    ensures var o := RunJob(cfg, env, history, job);
      o.ending.Exited? ==> o.actions == MakeDirectories(JobPaths(cfg, env, job).value)
  {
  }

  /** The job's name parses, it names an observed pixel cloud, and the existing-output check lets it through. */
  predicate PastGate(cfg: Config, env: Environment, history: seq<Action>, job: Job)
  {
    && JobPaths(cfg, env, job).Some? && PixcKey in job.params
    && !OutputsExist(cfg.flags, env, history + MakeDirectories(JobPaths(cfg, env, job).value), JobPaths(cfg, env, job).value)
  }

  /** The preconditions of `RunTile` hold for the paths of a job whose name parses. */
  lemma JobTile(cfg: Config, env: Environment, history: seq<Action>, job: Job)
    requires JobPaths(cfg, env, job).Some?
    ensures var p := JobPaths(cfg, env, job).value;
      && EndsWith(p.rivertile, ".nc") && EndsWith(p.pixcvec, ".nc")
      && (p.gdemPixc.Some? <==> !cfg.flags.nogdem) && (p.gdemDir.Some? <==> !cfg.flags.nogdem)
      && RunJob(cfg, env, history, job) == RunTile(cfg, env, ConvertFiles(env), history, job, p)
  {
  }

  /**
   * With the reference branch, a job past the existing-output check next
   * writes the conversion of its `true GDEM file`, decimated by 2 and with
   * its observed pixel cloud as attribute donor, to the reference pixel-cloud
   * path; a missing `true GDEM file` entry or a failed conversion raises
   * after the directories are made.
   */
  lemma ReferenceCloudOfJob(cfg: Config, env: Environment, history: seq<Action>, job: Job)
    requires PastGate(cfg, env, history, job) && !cfg.flags.nogdem
    ensures var p := JobPaths(cfg, env, job).value;
      var o := RunJob(cfg, env, history, job);
      var dirs := MakeDirectories(p);
      && (GdemKey !in job.params ==> o == Outcome(dirs, Raised(MissingParameter(GdemKey))))
      && (GdemKey in job.params ==>
            var converted := MakePixcFromGdem(env.readGdem(job.params[GdemKey]), env.readAttributes(env.absPath(job.params[PixcKey])), 2);
            && (converted.Err? ==> o == Outcome(dirs, Raised(ConversionFailed(converted.error))))
            && (converted.Ok? ==>
                  |o.actions| > |dirs| && o.actions[..|dirs|] == dirs
                  && o.actions[|dirs|] == WritePixelCloud(p.gdemPixc.value, converted.value)))
  {
    JobTile(cfg, env, history, job);
    TileReferenceCloud(cfg, env, ConvertFiles(env), history, job, JobPaths(cfg, env, job).value);
  }

  lemma TileReferenceCloud(cfg: Config, env: Environment, convert: Conversion, history: seq<Action>, job: Job, paths: OutputPaths)
    requires EndsWith(paths.rivertile, ".nc") && EndsWith(paths.pixcvec, ".nc")
    requires paths.gdemPixc.Some? <==> !cfg.flags.nogdem
    requires paths.gdemDir.Some? <==> !cfg.flags.nogdem
    requires PixcKey in job.params && !OutputsExist(cfg.flags, env, history + MakeDirectories(paths), paths)
    requires !cfg.flags.nogdem
    ensures var o := RunTile(cfg, env, convert, history, job, paths);
      var dirs := MakeDirectories(paths);
      && (GdemKey !in job.params ==> o == Outcome(dirs, Raised(MissingParameter(GdemKey))))
      && (GdemKey in job.params ==>
            var converted := convert(job.params[GdemKey], env.absPath(job.params[PixcKey]));
            && (converted.Err? ==> o == Outcome(dirs, Raised(ConversionFailed(converted.error))))
            && (converted.Ok? ==>
                  |o.actions| > |dirs| && o.actions[..|dirs|] == dirs
                  && o.actions[|dirs|] == WritePixelCloud(paths.gdemPixc.value, converted.value)))
  {
    var dirs := MakeDirectories(paths);
    var pixcFile := env.absPath(job.params[PixcKey]);
    var rest := Process(cfg, env, convert, history + dirs, job, pixcFile, paths);
    assert RunTile(cfg, env, convert, history, job, paths) == Outcome(dirs + rest.actions, rest.ending);
    assert dirs + [] == dirs;
    var synth := Synthesis(convert, job, pixcFile, paths.gdemPixc);
    if synth.Ok? {
      assert rest.actions[..1] == synth.value;
      assert (dirs + rest.actions)[..|dirs|] == dirs;
      assert (dirs + rest.actions)[|dirs|] == rest.actions[0];
    }
  }

  /**
   * A job past the existing-output check whose synthesis succeeded runs
   * RiverObs from the command-line location if one was given, else from
   * `RIVEROBS`, on its observed pixel cloud, river output, vector output and
   * absolute parameter file. The job raises `ProcessFailed` exactly when that
   * call's exit code is non-zero, and finishes otherwise. Without either
   * location it raises before running anything.
   */
  lemma ExtractionOfJob(cfg: Config, env: Environment, history: seq<Action>, job: Job)
    requires PastGate(cfg, env, history, job)
    requires Synthesis(ConvertFiles(env), job, env.absPath(job.params[PixcKey]), JobPaths(cfg, env, job).value.gdemPixc).Ok?
    ensures var p := JobPaths(cfg, env, job).value;
      var pixcFile := env.absPath(job.params[PixcKey]);
      var o := RunJob(cfg, env, history, job);
      var before := MakeDirectories(p) + Synthesis(ConvertFiles(env), job, pixcFile, p.gdemPixc).value;
      && (cfg.riverobsPath.None? && env.riverobsHome.None? ==>
            o == Outcome(before, Raised(MissingEnvironment("RIVEROBS")))
            && forall i :: 0 <= i < |o.actions| ==> !o.actions[i].Execute?)
      && (cfg.riverobsPath.Some? || env.riverobsHome.Some? ==>
            var home := if cfg.riverobsPath.Some? then cfg.riverobsPath.value else env.riverobsHome.value;
            var call := RiverobsCall(home, pixcFile, p.rivertile, p.pixcvec, env.absPath(cfg.parameterFile));
            var code := env.exitCode(history + MakeDirectories(p) + Synthesis(ConvertFiles(env), job, pixcFile, p.gdemPixc).value, call);
            && |o.actions| > |before| && o.actions[..|before|] == before
            && o.actions[|before|] == Execute(call)
            && (o.ending.Done? <==> code == 0)
            && (!o.ending.Done? ==> o.ending == Raised(ProcessFailed(code, call))))
  {
    JobTile(cfg, env, history, job);
    TileExtraction(cfg, env, ConvertFiles(env), history, job, JobPaths(cfg, env, job).value);
  }

  lemma TileExtraction(cfg: Config, env: Environment, convert: Conversion, history: seq<Action>, job: Job, paths: OutputPaths)
    requires EndsWith(paths.rivertile, ".nc") && EndsWith(paths.pixcvec, ".nc")
    requires paths.gdemPixc.Some? <==> !cfg.flags.nogdem
    requires paths.gdemDir.Some? <==> !cfg.flags.nogdem
    requires PixcKey in job.params && !OutputsExist(cfg.flags, env, history + MakeDirectories(paths), paths)
    requires Synthesis(convert, job, env.absPath(job.params[PixcKey]), paths.gdemPixc).Ok?
    ensures var pixcFile := env.absPath(job.params[PixcKey]);
      var o := RunTile(cfg, env, convert, history, job, paths);
      var before := MakeDirectories(paths) + Synthesis(convert, job, pixcFile, paths.gdemPixc).value;
      && (cfg.riverobsPath.None? && env.riverobsHome.None? ==>
            o == Outcome(before, Raised(MissingEnvironment("RIVEROBS")))
            && forall i :: 0 <= i < |o.actions| ==> !o.actions[i].Execute?)
      && (cfg.riverobsPath.Some? || env.riverobsHome.Some? ==>
            var home := if cfg.riverobsPath.Some? then cfg.riverobsPath.value else env.riverobsHome.value;
            var call := RiverobsCall(home, pixcFile, paths.rivertile, paths.pixcvec, env.absPath(cfg.parameterFile));
            var code := env.exitCode(history + MakeDirectories(paths) + Synthesis(convert, job, pixcFile, paths.gdemPixc).value, call);
            && |o.actions| > |before| && o.actions[..|before|] == before
            && o.actions[|before|] == Execute(call)
            && (o.ending.Done? <==> code == 0)
            && (!o.ending.Done? ==> o.ending == Raised(ProcessFailed(code, call))))
  {
    var pixcFile := env.absPath(job.params[PixcKey]);
    var dirs := MakeDirectories(paths);
    var synth := Synthesis(convert, job, pixcFile, paths.gdemPixc).value;
    var rest := Located(cfg, env, history + dirs, synth, pixcFile, paths);
    assert RunTile(cfg, env, convert, history, job, paths) == Outcome(dirs + rest.actions, rest.ending);
    if RiverobsHome(cfg, env).Some? {
      LocatedCall(cfg, env, history + dirs, synth, pixcFile, paths);
      LocatedAfter(cfg, env, history, dirs, synth, pixcFile, paths);
    } else {
      assert forall i :: 0 <= i < |synth| ==> synth[i].WritePixelCloud?;
    }
  }

  /** The extraction call seen from the start of the job, after the directories and the synthesis. */
  lemma LocatedAfter(cfg: Config, env: Environment, history: seq<Action>, dirs: seq<Action>, synth: seq<Action>, pixcFile: string, paths: OutputPaths)
    requires EndsWith(paths.rivertile, ".nc") && EndsWith(paths.pixcvec, ".nc")
    requires RiverobsHome(cfg, env).Some?
    ensures var actions := dirs + Located(cfg, env, history + dirs, synth, pixcFile, paths).actions;
      && |actions| > |dirs + synth| && actions[..|dirs + synth|] == dirs + synth
      && actions[|dirs + synth|] == Execute(ExtractionCall(cfg, env, pixcFile, paths, RiverobsHome(cfg, env).value))
  {
    LocatedCall(cfg, env, history + dirs, synth, pixcFile, paths);
    PrefixOfAppend(dirs, Located(cfg, env, history + dirs, synth, pixcFile, paths).actions, synth);
  }

  /** When `c` is a proper prefix of `b`, `a + c` is one of `a + b`, followed by the same action. */
  lemma PrefixOfAppend(a: seq<Action>, b: seq<Action>, c: seq<Action>)
    requires |c| < |b| && b[..|c|] == c
    ensures |a + b| > |a + c| && (a + b)[..|a + c|] == a + c && (a + b)[|a + c|] == b[|c|]
  {
    assert forall i :: 0 <= i < |a + c| ==> (a + b)[i] == (a + c)[i];
  }

  /**
   * Unless shapefiles are disabled, a finished job's three exports come just
   * before its annotation, with the extension of each source changed; when
   * `.nc` occurs in neither source but as its extension, they are exactly
   * the exports as the driver writes them.
   */
  lemma DoneJobExports(cfg: Config, env: Environment, history: seq<Action>, job: Job)
    requires RunJob(cfg, env, history, job).ending.Done? && !cfg.flags.noshp
    ensures JobPaths(cfg, env, job).Some?
    ensures var o := RunJob(cfg, env, history, job);
      var p := JobPaths(cfg, env, job).value;
      && |o.actions| >= 4
      && o.actions[|o.actions| - 4..|o.actions| - 1] == ShapefileExports(p.rivertile, p.pixcvec)
      && (SoleExtension(p.rivertile) && SoleExtension(p.pixcvec) ==>
            o.actions[|o.actions| - 4..|o.actions| - 1] == ShapefileExportsAsWritten(p.rivertile, p.pixcvec))
  {
    JobTile(cfg, env, history, job);
    var p := JobPaths(cfg, env, job).value;
    var o := RunJob(cfg, env, history, job);
    FinishingExports(cfg.flags, env.absPath(job.params[PixcKey]), p, o.actions);
    if SoleExtension(p.rivertile) && SoleExtension(p.pixcvec) {
      AsWrittenAgreesOnSoleExtension(p.rivertile, p.pixcvec);
    }
  }

  /** A trace that ends with the finishing actions has the exports just before its annotation. */
  lemma FinishingExports(flags: Flags, pixcFile: string, paths: OutputPaths, actions: seq<Action>)
    requires EndsWith(paths.rivertile, ".nc") && EndsWith(paths.pixcvec, ".nc")
    requires SuffixOf(Finishing(flags, pixcFile, paths), actions) && !flags.noshp
    ensures |actions| >= 4 && actions[|actions| - 4..|actions| - 1] == ShapefileExports(paths.rivertile, paths.pixcvec)
  {
    var fin := Finishing(flags, pixcFile, paths);
    assert actions[|actions| - 4..|actions| - 1] == fin[..3];
  }

  /** The kind of an action, for stating the order of a job's actions. */
  datatype Step = MakeDirectory | Synthesize | Extract | Export | Annotate

  function StepOf(a: Action): Step
  {
    match a
    case EnsureDir(_) => MakeDirectory
    case WritePixelCloud(_, _) => Synthesize
    case Execute(_) => Extract
    case ExportShapefile(_, _, _) => Export
    case WriteAnnotation(_, _) => Annotate
  }

  function Steps(actions: seq<Action>): (steps: seq<Step>)
    ensures |steps| == |actions|
    ensures forall i :: 0 <= i < |actions| ==> steps[i] == StepOf(actions[i])
  {
    seq(|actions|, i requires 0 <= i < |actions| => StepOf(actions[i]))
  }

  lemma LastOfAppend(a: seq<Action>, b: seq<Action>)
    ensures forall x :: LastAction(b, x) ==> LastAction(a + b, x)
  {
  }

  lemma SuffixOfAppend(tail: seq<Action>, a: seq<Action>, b: seq<Action>)
    ensures SuffixOf(tail, b) ==> SuffixOf(tail, a + b)
  {
    if SuffixOf(tail, b) {
      assert (a + b)[|a + b| - |tail|..] == b[|b| - |tail|..];
    }
  }

  lemma StepsAppend(a: seq<Action>, b: seq<Action>)
    ensures Steps(a + b) == Steps(a) + Steps(b)
  {
  }

  /**
   * The order of a job that gets past the existing-output check: the
   * directories, the synthesis (with the reference branch), the extraction,
   * and, if the extraction succeeded, the three exports (without `noshp`)
   * and the annotation.
   */
  function ExpectedSteps(flags: Flags, extracted: bool): seq<Step>
  {
    DirectorySteps(flags) + SynthesisSteps(flags) + [Extract] + (if extracted then FinishingSteps(flags) else [])
  }

  function DirectorySteps(flags: Flags): seq<Step>
  {
    if flags.nogdem then [MakeDirectory] else [MakeDirectory, MakeDirectory]
  }

  function SynthesisSteps(flags: Flags): seq<Step>
  {
    if flags.nogdem then [] else [Synthesize]
  }

  function FinishingSteps(flags: Flags): seq<Step>
  {
    (if flags.noshp then [] else [Export, Export, Export]) + [Annotate]
  }

  lemma ExpectedStepsSplit(flags: Flags)
    ensures ExpectedSteps(flags, true) == DirectorySteps(flags) + (SynthesisSteps(flags) + ([Extract] + FinishingSteps(flags)))
    ensures ExpectedSteps(flags, false) == DirectorySteps(flags) + (SynthesisSteps(flags) + [Extract])
  {
  }

  // ---------------------------------------------------------------- the annotation of a finished job

  /**
   * A job that finishes leaves, as its last action, the annotation naming
   * the observed pixel cloud, the reference pixel cloud (or `None`), the
   * vector output, and the reference vector output exactly when the
   * reference branch is enabled; the next stage reads these entries back
   * when no path contains a line break.
   */
  lemma DoneJobAnnotation(cfg: Config, env: Environment, history: seq<Action>, job: Job)
    requires RunJob(cfg, env, history, job).ending.Done?
    ensures JobPaths(cfg, env, job).Some? && PixcKey in job.params
    ensures var o := RunJob(cfg, env, history, job);
      var p := JobPaths(cfg, env, job).value;
      var pixcFile := env.absPath(job.params[PixcKey]);
      var text := Annotation.AnnotationText(pixcFile, p.gdemPixc, p.pixcvec, p.pixcvecGdem);
      var es := Annotation.AnnotationEntries(pixcFile, p.gdemPixc, p.pixcvec, p.pixcvecGdem);
      && LastAction(o.actions, WriteAnnotation(p.annotation, text))
      && Annotation.Lookup(es, "pixc file") == Some(pixcFile)
      && Annotation.Lookup(es, "pixcvec file") == Some(p.pixcvec)
      && (cfg.flags.nogdem ==> Annotation.Lookup(es, "gdem pixc file") == Some("None"))
      && (Annotation.Lookup(es, "pixcvec file from gdem").Some? <==> !cfg.flags.nogdem)
      && ('\n' !in pixcFile && '\n' !in p.pixcvec
          && (p.gdemPixc.Some? ==> '\n' !in p.gdemPixc.value)
          && (p.pixcvecGdem.Some? ==> '\n' !in p.pixcvecGdem.value)
          ==> Annotation.ReadAnnotation(text) == Some(es))
  {
    var p := JobPaths(cfg, env, job).value;
    var pixcFile := env.absPath(job.params[PixcKey]);
    Annotation.EntriesLookup(pixcFile, p.gdemPixc, p.pixcvec, p.pixcvecGdem);
    if '\n' !in pixcFile && '\n' !in p.pixcvec
       && (p.gdemPixc.Some? ==> '\n' !in p.gdemPixc.value)
       && (p.pixcvecGdem.Some? ==> '\n' !in p.pixcvecGdem.value) {
      Annotation.AnnotationReadsBack(pixcFile, p.gdemPixc, p.pixcvec, p.pixcvecGdem);
    }
  }

  // ---------------------------------------------------------------- shapefile names as written

  /**
   * The shapefile exports with their targets computed as the driver writes
   * them, by replacing every `.nc` in the whole path rather than only the
   * extension.
   */
  function ShapefileExportsAsWritten(rivertile: string, pixcvec: string): (actions: seq<Action>)
    ensures |actions| == 3 && forall i :: 0 <= i < 3 ==> actions[i].ExportShapefile?
    ensures actions[0].source == rivertile && actions[1].source == rivertile && actions[2].source == pixcvec
  {
    [ExportShapefile(rivertile, ReplaceAll(rivertile, ".nc", "_node.shp"), NodeLayer),
     ExportShapefile(rivertile, ReplaceAll(rivertile, ".nc", "_reach.shp"), ReachLayer),
     ExportShapefile(pixcvec, ReplaceAll(pixcvec, ".nc", ".shp"), PixcvecLayer)]
  }

  /** `.nc` ends `path` and occurs nowhere else in it. */
  predicate SoleExtension(path: string)
  {
    EndsWith(path, ".nc") && forall i :: 0 <= i < |path| - 3 ==> !OccursAt(path, ".nc", i)
  }

  /** The replacement as written is the extension change whenever `.nc` occurs only as the extension. */
  lemma AsWrittenAgreesOnSoleExtension(rivertile: string, pixcvec: string)
    requires SoleExtension(rivertile) && SoleExtension(pixcvec)
    ensures ShapefileExportsAsWritten(rivertile, pixcvec) == ShapefileExports(rivertile, pixcvec)
  {
    SoleSuffixSwap(rivertile, "_node.shp");
    SoleSuffixSwap(rivertile, "_reach.shp");
    SoleSuffixSwap(pixcvec, ".shp");
  }

  lemma SoleSuffixSwap(path: string, rep: string)
    requires SoleExtension(path)
    ensures ReplaceAll(path, ".nc", rep) == SwapSuffix(path, ".nc", rep)
  {
    var t := path[..|path| - 3];
    assert t + ".nc" == path;
    ReplaceAllOfSoleSuffix(t, ".nc", rep);
  }

  /**
   * When the absolute observed-branch directory contains no `.`, the river
   * and vector outputs carry `.nc` only as their extension, so the exports
   * as written are the extension change (`DoneJobExports`).
   */
  lemma SoleExtensionOfOutputs(outputDir: string, absPath: string -> string, nogdem: bool, id: TileId)
    requires PlainTileId(id) && '.' !in absPath(PathJoin(outputDir, "pixc"))
    ensures var p := MakeOutputPaths(outputDir, absPath, nogdem, id);
      SoleExtension(p.rivertile) && SoleExtension(p.pixcvec)
  {
    var riverDir := absPath(PathJoin(outputDir, "pixc"));
    SoleExtensionOfTileName(riverDir, "rivertile", id);
    SoleExtensionOfTileName(riverDir, "pixcvec", id);
  }

  /** A per-tile `.nc` name in a directory without `.` has `.nc` only as its extension. */
  lemma SoleExtensionOfTileName(dir: string, lead: string, id: TileId)
    requires PlainTileId(id) && '.' !in dir && '.' !in lead && lead != [] && lead[0] != '/'
    ensures SoleExtension(PathJoin(dir, TileName(lead, id, ".nc")))
  {
    var stem := lead + "_" + TileSuffix(id);
    assert TileName(lead, id, ".nc") == stem + ".nc";
    assert stem[0] == lead[0];
    assert '.' !in TileSuffix(id);
    SoleExtensionOfJoin(dir, stem);
  }

  /** `<dir>/<stem>.nc` has `.nc` only as its extension when neither `dir` nor `stem` contains a `.`. */
  lemma SoleExtensionOfJoin(dir: string, stem: string)
    requires '.' !in dir && '.' !in stem && stem != [] && stem[0] != '/'
    ensures SoleExtension(PathJoin(dir, stem + ".nc"))
  {
    var head := PathJoin(dir, stem);
    var path := PathJoin(dir, stem + ".nc");
    assert path == head + ".nc";
    assert '.' !in head by {
      if dir == [] || dir[|dir| - 1] == '/' {
        assert head == dir + stem;
      } else {
        assert head == dir + "/" + stem;
      }
    }
    SoleExtensionOfDotless(head);
  }

  /** A path without a `.`, followed by `.nc`, has `.nc` only as its extension. */
  lemma SoleExtensionOfDotless(head: string)
    requires '.' !in head
    ensures SoleExtension(head + ".nc")
  {
    var path := head + ".nc";
    forall i | 0 <= i < |path| - 3
      ensures !OccursAt(path, ".nc", i)
    {
      assert path[i..i + 3][0] == path[i] == head[i] != '.';
    }
  }

  /**
   * An output directory whose name contains `.nc` (here `a.nc`) moves the
   * node shapefile as written out of the directory of its source, while
   * the extension change keeps it next to its source.
   */
  lemma ReplaceRewritesDirectory()
    ensures ReplaceAll("a.nc/r.nc", ".nc", "_node.shp") == "a" + "_node.shp" + "/r" + "_node.shp"
    ensures SwapSuffix("a.nc/r.nc", ".nc", "_node.shp") == "a.nc/r" + "_node.shp"
    ensures !SameStem("a.nc/r.nc", ReplaceAll("a.nc/r.nc", ".nc", "_node.shp"))
  {
    NodeTargetAsWritten();
    assert ("a" + "_node.shp" + "/r" + "_node.shp")[1] == '_';
  }

  /** The node-shapefile target of `a.nc/r.nc`, evaluated one replacement step at a time. */
  lemma NodeTargetAsWritten()
    ensures ReplaceAll("a.nc/r.nc", ".nc", "_node.shp") == "a" + "_node.shp" + "/r" + "_node.shp"
  {
    var rep, pat := "_node.shp", ".nc";
    var s0, s1, s2, s3, s4 := "a.nc/r.nc", ".nc/r.nc", "/r.nc", "r.nc", ".nc";
    assert s0[..3][0] == 'a' && s0[1..] == s1;
    ReplaceAllKeeps(s0, pat, rep);
    assert s1[..3] == pat && s1[3..] == s2;
    ReplaceAllReplaces(s1, pat, rep);
    assert s2[..3][0] == '/' && s2[1..] == s3;
    ReplaceAllKeeps(s2, pat, rep);
    assert s3[..3][0] == 'r' && s3[1..] == s4;
    ReplaceAllKeeps(s3, pat, rep);
    assert s4[..3] == pat && s4[3..] == [];
    ReplaceAllReplaces(s4, pat, rep);
  }
}

=== FILE: text.dfy ===
/**
 * The Python string and path primitives the pipeline builds its file names
 * with: `str.split` on a one-character separator and its inverse `sep.join`,
 * `os.path.basename`, the two-argument `os.path.join` and `str.replace`.
 */
module Text {

  /** `sep.join(parts)`; `parts` is never empty because `str.split` never returns an empty list. */
  function Join(parts: seq<string>, sep: char): string
    requires |parts| >= 1
    decreases |parts|
  {
    if |parts| == 1 then parts[0] else parts[0] + [sep] + Join(parts[1..], sep)
  }

  /** The number of occurrences of `c` in `s`. */
  function Count(s: string, c: char): nat
    decreases |s|
  {
    if s == [] then 0 else (if s[0] == c then 1 else 0) + Count(s[1..], c)
  }

  /**
   * `s.split(sep)`: the maximal separator-free fields of `s`, empty fields
   * included, so there is always one more field than separators.
   */
  function Split(s: string, sep: char): (parts: seq<string>)
    ensures |parts| == Count(s, sep) + 1
    ensures forall i :: 0 <= i < |parts| ==> sep !in parts[i]
    ensures forall i, x :: 0 <= i < |parts| && x in parts[i] ==> x in s
    ensures Join(parts, sep) == s
    decreases |s|
  {
    if s == [] then [""]
    else
      var rest := Split(s[1..], sep);
      assert s == [s[0]] + s[1..];
      if s[0] == sep then
        var parts := [""] + rest;
        assert parts[1..] == rest;
        parts
      else
        var head := [s[0]] + rest[0];
        var parts := [head] + rest[1..];
        assert Join(parts, sep) == s by {
          if |rest| > 1 {
            assert parts[1..] == rest[1..];
          }
        }
        assert forall i, x :: 0 <= i < |parts| && x in parts[i] ==> x in s by {
          forall i, x | 0 <= i < |parts| && x in parts[i] ensures x in s {
            if i == 0 {
              assert x == s[0] || x in rest[0];
            } else {
              assert parts[i] == rest[i];
            }
          }
        }
        parts
  }

  /** A string without the separator is a single field. */
  lemma {:induction false} SplitNoSeparator(s: string, sep: char)
    requires sep !in s
    ensures Split(s, sep) == [s]
  {
    NoOccurrenceCountsZero(s, sep);
  }

  lemma {:induction false} NoOccurrenceCountsZero(s: string, c: char)
    requires c !in s
    ensures Count(s, c) == 0
    decreases |s|
  {
    if s != [] {
      assert forall x :: x in s[1..] ==> x in s;
      NoOccurrenceCountsZero(s[1..], c);
    }
  }

  /** Splitting at a separator splits the fields on either side independently. */
  lemma {:induction false} SplitAppend(a: string, sep: char, b: string)
    ensures Split(a + [sep] + b, sep) == Split(a, sep) + Split(b, sep)
    decreases |a|
  {
    var s := a + [sep] + b;
    if a == [] {
      assert s == [sep] + b;
      assert s[1..] == b;
    } else {
      assert s[1..] == a[1..] + [sep] + b;
      SplitAppend(a[1..], sep, b);
    }
  }

  /** Joining separator-free fields and splitting again gives the fields back. */
  lemma {:induction false} SplitJoin(parts: seq<string>, sep: char)
    requires |parts| >= 1
    requires forall i :: 0 <= i < |parts| ==> sep !in parts[i]
    ensures Split(Join(parts, sep), sep) == parts
    decreases |parts|
  {
    SplitNoSeparator(parts[0], sep);
    if |parts| > 1 {
      SplitJoin(parts[1..], sep);
      SplitAppend(parts[0], sep, Join(parts[1..], sep));
      assert [parts[0]] + parts[1..] == parts;
    }
  }

  /** `os.path.basename(p)`: what follows the last `/` of `p`. */
  function Basename(p: string): (name: string)
    ensures '/' !in name
    ensures forall x :: x in name ==> x in p
  {
    var fields := Split(p, '/');
    fields[|fields| - 1]
  }

  /** The two-argument `os.path.join(a, b)` of POSIX Python. */
  function PathJoin(a: string, b: string): (p: string)
    ensures EndsWith(p, b)
  {
    if |b| > 0 && b[0] == '/' then b
    else if a == [] || a[|a| - 1] == '/' then a + b
    else a + "/" + b
  }

  /** `os.path.join(a, *parts)`: the two-argument join applied from the left. */
  function PathJoinAll(a: string, parts: seq<string>): (p: string)
    ensures parts != [] ==> EndsWith(p, parts[|parts| - 1])
    decreases |parts|
  {
    if parts == [] then a
    else
      assert |parts| > 1 ==> parts[1..][|parts| - 2] == parts[|parts| - 1];
      PathJoinAll(PathJoin(a, parts[0]), parts[1..])
  }

  /** `os.path.basename` undoes `os.path.join` for a plain file name. */
  lemma BasenameOfPathJoin(dir: string, name: string)
    requires '/' !in name
    ensures Basename(PathJoin(dir, name)) == name
  {
    SplitNoSeparator(name, '/');
    if dir == [] {
      assert PathJoin(dir, name) == name;
    } else if dir[|dir| - 1] == '/' {
      var d := dir[..|dir| - 1];
      assert PathJoin(dir, name) == d + ['/'] + name;
      SplitAppend(d, '/', name);
    } else {
      assert PathJoin(dir, name) == dir + ['/'] + name;
      SplitAppend(dir, '/', name);
    }
  }

  /** The base name of a multi-part join is its last part, when that part is a plain file name. */
  lemma {:induction false} BasenameOfPathJoinAll(a: string, parts: seq<string>)
    requires parts != [] && '/' !in parts[|parts| - 1]
    ensures Basename(PathJoinAll(a, parts)) == parts[|parts| - 1]
    decreases |parts|
  {
    if |parts| == 1 {
      BasenameOfPathJoin(a, parts[0]);
    } else {
      BasenameOfPathJoinAll(PathJoin(a, parts[0]), parts[1..]);
    }
  }

  /** A character other than `/` that none of the parts contains is not in their join either. */
  lemma {:induction false} PathJoinAllAvoids(a: string, parts: seq<string>, c: char)
    requires c != '/' && c !in a
    requires forall i :: 0 <= i < |parts| ==> c !in parts[i]
    ensures c !in PathJoinAll(a, parts)
    decreases |parts|
  {
    if parts != [] {
      var b := parts[0];
      assert c !in b;
      assert c !in PathJoin(a, b) by {
        if |b| > 0 && b[0] == '/' {
        } else if a == [] || a[|a| - 1] == '/' {
          assert PathJoin(a, b) == a + b;
        } else {
          assert PathJoin(a, b) == a + "/" + b;
        }
      }
      PathJoinAllAvoids(PathJoin(a, b), parts[1..], c);
    }
  }

  /** Joining a fixed directory with plain file names is injective. */
  lemma PathJoinInjective(dir: string, x: string, y: string)
    requires '/' !in x && '/' !in y
    requires PathJoin(dir, x) == PathJoin(dir, y)
    ensures x == y
  {
    BasenameOfPathJoin(dir, x);
    BasenameOfPathJoin(dir, y);
  }

  /**
   * The text before the last `/` of `p`, empty when there is none: the
   * directory a file lies in, as `os.path.dirname` gives it for a path whose
   * directory part does not end in `/`.
   */
  function Dirname(p: string): string
    decreases |p|
  {
    if p == [] then []
    else if p[|p| - 1] == '/' then p[..|p| - 1]
    else Dirname(p[..|p| - 1])
  }

  /** Appending a name without `/` does not change the directory. */
  lemma {:induction false} DirnameSkipsName(d: string, name: string)
    requires '/' !in name
    ensures Dirname(d + name) == Dirname(d)
    decreases |name|
  {
    if name == [] {
      assert d + name == d;
    } else {
      var init := name[..|name| - 1];
      assert (d + name)[|d + name| - 1] == name[|name| - 1] != '/';
      assert (d + name)[..|d + name| - 1] == d + init;
      assert forall x :: x in init ==> x in name;
      DirnameSkipsName(d, init);
    }
  }

  /** A file joined onto a directory that does not end in `/` lies in that directory. */
  lemma DirnameOfPathJoin(dir: string, name: string)
    requires '/' !in name
    requires dir == [] || dir[|dir| - 1] != '/'
    ensures Dirname(PathJoin(dir, name)) == dir
  {
    if dir == [] {
      assert PathJoin(dir, name) == [] + name;
      DirnameSkipsName([], name);
    } else {
      assert PathJoin(dir, name) == (dir + "/") + name;
      DirnameSkipsName(dir + "/", name);
      assert (dir + "/")[..|dir|] == dir;
    }
  }

  /** `pat` occurs in `s` starting at index `i`. */
  predicate OccursAt(s: string, pat: string, i: int)
  {
    0 <= i && i + |pat| <= |s| && s[i..i + |pat|] == pat
  }

  /**
   * `s.replace(pat, rep)`: every non-overlapping occurrence of `pat`, scanning
   * from the left, is replaced by `rep`.
   */
  function ReplaceAll(s: string, pat: string, rep: string): string
    requires |pat| > 0
    decreases |s|
  {
    if |s| < |pat| then s
    else if s[..|pat|] == pat then rep + ReplaceAll(s[|pat|..], pat, rep)
    else [s[0]] + ReplaceAll(s[1..], pat, rep)
  }

  /** `s.replace` leaves a string in which `pat` never occurs unchanged. */
  lemma {:induction false} ReplaceAllWithoutOccurrence(s: string, pat: string, rep: string)
    requires |pat| > 0
    requires forall i :: !OccursAt(s, pat, i)
    ensures ReplaceAll(s, pat, rep) == s
    decreases |s|
  {
    if |s| >= |pat| {
      assert !OccursAt(s, pat, 0);
      forall i ensures !OccursAt(s[1..], pat, i) {
        assert !OccursAt(s, pat, i + 1);
      }
      ReplaceAllWithoutOccurrence(s[1..], pat, rep);
    }
  }

  /** Where `pat` does not start `s`, `s.replace` keeps the first character and goes on with the rest. */
  lemma ReplaceAllKeeps(s: string, pat: string, rep: string)
    requires 0 < |pat| <= |s| && s[..|pat|] != pat
    ensures ReplaceAll(s, pat, rep) == [s[0]] + ReplaceAll(s[1..], pat, rep)
  {
  }

  /** Where `pat` starts `s`, `s.replace` puts `rep` in its place and goes on after it. */
  lemma ReplaceAllReplaces(s: string, pat: string, rep: string)
    requires 0 < |pat| <= |s| && s[..|pat|] == pat
    ensures ReplaceAll(s, pat, rep) == rep + ReplaceAll(s[|pat|..], pat, rep)
  {
  }

  /** `s` ends with `suffix`. */
  predicate EndsWith(s: string, suffix: string)
  {
    |suffix| <= |s| && s[|s| - |suffix|..] == suffix
  }

  lemma EndsWithTransitive(s: string, t: string, u: string)
    requires EndsWith(s, t) && EndsWith(t, u)
    ensures EndsWith(s, u)
  {
    assert s[|s| - |u|..] == s[|s| - |t|..][|t| - |u|..];
  }

  /**
   * The replacement a file-name change means: the trailing `ext` of `path`
   * becomes `rep`, and everything before it is kept.
   */
  function SwapSuffix(path: string, ext: string, rep: string): (r: string)
    requires EndsWith(path, ext)
    ensures EndsWith(r, rep)
    ensures |r| == |path| - |ext| + |rep|
    ensures forall i :: 0 <= i < |path| - |ext| ==> r[i] == path[i]
  {
    path[..|path| - |ext|] + rep
  }

  /**
   * When `pat` occurs in `t + pat` only at its end, replacing every
   * occurrence is the same as swapping the suffix.
   */
  lemma {:induction false} ReplaceAllOfSoleSuffix(t: string, pat: string, rep: string)
    requires |pat| > 0
    requires forall i :: 0 <= i < |t| ==> !OccursAt(t + pat, pat, i)
    ensures ReplaceAll(t + pat, pat, rep) == t + rep
    decreases |t|
  {
    var s := t + pat;
    if t == [] {
      assert s == pat && s[..|pat|] == pat && s[|pat|..] == [];
      ReplaceAllReplaces(s, pat, rep);
    } else {
      assert !OccursAt(s, pat, 0);
      assert s[..|pat|] != pat;
      ReplaceAllKeeps(s, pat, rep);
      SoleSuffixTail(t, pat);
      assert s[1..] == t[1..] + pat;
      ReplaceAllOfSoleSuffix(t[1..], pat, rep);
      assert [t[0]] + (t[1..] + rep) == t + rep;
    }
  }

  /** Dropping the first character of `t` keeps `pat` away from everywhere but the end. */
  lemma SoleSuffixTail(t: string, pat: string)
    requires |t| > 0
    requires forall i :: 0 <= i < |t| ==> !OccursAt(t + pat, pat, i)
    ensures forall i :: 0 <= i < |t| - 1 ==> !OccursAt(t[1..] + pat, pat, i)
  {
    forall i | 0 <= i < |t| - 1
      ensures !OccursAt(t[1..] + pat, pat, i)
    {
      assert !OccursAt(t + pat, pat, i + 1);
      if i + |pat| <= |t[1..] + pat| {
        assert (t[1..] + pat)[i..i + |pat|] == (t + pat)[i + 1..i + 1 + |pat|];
      }
    }
  }
}

=== FILE: tile_naming.dfy ===
/**
 * The tile identity read from a job descriptor's file name, and the output
 * paths derived from it.
 */
module TileNaming {
  import opened Basics
  import opened Text

  /** A tile: cycle number, orbit number and latitude tile id, each kept as the text of the file name. */
  datatype TileId = TileId(cycle: string, orbit: string, tile: string)

  /** Too few `_`-separated fields in the descriptor's name: Python's `IndexError`. */
  datatype NameError = TooFewFields(fieldCount: nat)

  /** The file name of `path` up to its first `.`. */
  function Stem(path: string): string
  {
    Split(Basename(path), '.')[0]
  }

  /** The `_`-separated fields of the descriptor's stem. */
  function TileFields(path: string): (fields: seq<string>)
    ensures |fields| >= 1
    ensures forall i :: 0 <= i < |fields| ==> '_' !in fields[i] && '.' !in fields[i] && '/' !in fields[i]
  {
    var fields := Split(Stem(path), '_');
    assert forall i, x :: 0 <= i < |fields| && x in fields[i] ==> x in Stem(path);
    fields
  }

  /** The three parts of a tile id are plain fields: no separator of the naming convention occurs in them. */
  predicate PlainField(s: string)
  {
    '_' !in s && '.' !in s && '/' !in s
  }

  predicate PlainTileId(id: TileId)
  {
    PlainField(id.cycle) && PlainField(id.orbit) && PlainField(id.tile)
  }

  /**
   * Fields 2, 3 and 4 of the descriptor's stem are cycle, orbit and tile;
   * a stem with fewer than five fields fails as Python's indexing does.
   */
  function ParseTileId(path: string): (r: Result<TileId, NameError>)
    ensures r.Ok? ==> PlainTileId(r.value)
  {
    var fields := TileFields(path);
    if |fields| < 5 then Err(TooFewFields(|fields|))
    else Ok(TileId(fields[2], fields[3], fields[4]))
  }

  /** Parsing fails exactly when the stem has fewer than four underscores. */
  lemma ParseFailsIffFewUnderscores(path: string)
    ensures ParseTileId(path).Err? <==> Count(Stem(path), '_') < 4
  {
  }

  /**
   * A descriptor named `<p0>_<p1>_<cycle>_<orbit>_<tile>[_...].<ext>` in any
   * directory parses to that cycle, orbit and tile.
   */
  lemma {:induction false} ParseConventionalName(dir: string, prefix: seq<string>, id: TileId, rest: seq<string>, ext: string)
    requires |prefix| == 2 && PlainField(prefix[0]) && PlainField(prefix[1])
    requires PlainTileId(id)
    requires forall i :: 0 <= i < |rest| ==> PlainField(rest[i])
    requires '/' !in ext
    ensures ParseTileId(dir + "/" + Join(prefix + [id.cycle, id.orbit, id.tile] + rest, '_') + "." + ext)
            == Ok(TileId(id.cycle, id.orbit, id.tile))
  {
    var fields := prefix + [id.cycle, id.orbit, id.tile] + rest;
    var stem := Join(fields, '_');
    var path := dir + "/" + stem + "." + ext;
    assert forall i :: 0 <= i < |fields| ==> PlainField(fields[i]);
    JoinKeepsOut(fields, '_', '.');
    JoinKeepsOut(fields, '_', '/');
    StemOfDescriptor(dir, stem, ext);
    SplitJoin(fields, '_');
    assert TileFields(path) == fields;
  }

  /** The stem of `<dir>/<stem>.<ext>` is `stem` when it has no `/` or `.`. */
  lemma StemOfDescriptor(dir: string, stem: string, ext: string)
    requires '/' !in stem && '.' !in stem && '/' !in ext
    ensures Stem(dir + "/" + stem + "." + ext) == stem
  {
    var name := stem + "." + ext;
    assert dir + "/" + stem + "." + ext == dir + ['/'] + name;
    BasenameAfterSlash(dir, name);
    assert name == stem + ['.'] + ext;
    SplitAppend(stem, '.', ext);
    SplitNoSeparator(stem, '.');
  }

  /** The base name of `<dir>/<name>` is `name` when it has no `/`. */
  lemma BasenameAfterSlash(dir: string, name: string)
    requires '/' !in name
    ensures Basename(dir + ['/'] + name) == name
  {
    SplitAppend(dir, '/', name);
    SplitNoSeparator(name, '/');
  }

  /** Joining fields that avoid a character gives a string that avoids it, if it is not the separator. */
  lemma {:induction false} JoinKeepsOut(parts: seq<string>, sep: char, c: char)
    requires |parts| >= 1 && c != sep
    requires forall i :: 0 <= i < |parts| ==> c !in parts[i]
    ensures c !in Join(parts, sep)
    decreases |parts|
  {
    if |parts| > 1 {
      JoinKeepsOut(parts[1..], sep, c);
    }
  }

  /** `<cycle>_<orbit>_<tile>`, the part every per-tile output name shares. */
  function TileSuffix(id: TileId): string
  {
    id.cycle + "_" + id.orbit + "_" + id.tile
  }

  /** `<lead>_<cycle>_<orbit>_<tile><tail>`: the shape of every per-tile output name but one. */
  function TileName(lead: string, id: TileId, tail: string): string
  {
    lead + "_" + TileSuffix(id) + tail
  }

  /** The names the pipeline gives a tile's outputs. */
  function RivertileName(id: TileId): string { TileName("rivertile", id, ".nc") }
  function PixcvecName(id: TileId): string { TileName("pixcvec", id, ".nc") }
  function AnnotationName(id: TileId): string { TileName("river-annotation", id, ".rdf") }
  function GdemPixcName(id: TileId): string { "pixel_cloud_gdem" + id.cycle + "-" + id.orbit + "_" + id.tile + ".nc" }

  /**
   * Every output path of one job. The observed-branch directory goes through
   * `abspath`, the reference-branch one does not; the reference-branch paths
   * exist only when the reference branch is enabled.
   */
  datatype OutputPaths = OutputPaths(
    riverDir: string,
    gdemDir: Option<string>,
    rivertile: string,
    pixcvec: string,
    annotation: string,
    rivertileGdem: Option<string>,
    pixcvecGdem: Option<string>,
    gdemPixc: Option<string>)

  /** The output paths of tile `id` under `outputDir`, with `absPath` standing for `os.path.abspath`. */
  function MakeOutputPaths(outputDir: string, absPath: string -> string, nogdem: bool, id: TileId): (paths: OutputPaths)
    ensures paths.gdemDir.Some? <==> !nogdem
    ensures paths.rivertileGdem.Some? <==> !nogdem
    ensures paths.pixcvecGdem.Some? <==> !nogdem
    ensures paths.gdemPixc.Some? <==> !nogdem
    ensures EndsWith(paths.rivertile, ".nc") && EndsWith(paths.pixcvec, ".nc")
    ensures paths.riverDir == absPath(PathJoin(outputDir, "pixc"))
    ensures paths.gdemDir == if nogdem then None else Some(PathJoin(outputDir, "gdem"))
  {
    var riverDir := absPath(PathJoin(outputDir, "pixc"));
    var gdemDir := PathJoin(outputDir, "gdem");
    EndsWithTransitive(PathJoin(riverDir, RivertileName(id)), RivertileName(id), ".nc");
    EndsWithTransitive(PathJoin(riverDir, PixcvecName(id)), PixcvecName(id), ".nc");
    OutputPaths(
      riverDir,
      if nogdem then None else Some(gdemDir),
      PathJoin(riverDir, RivertileName(id)),
      PathJoin(riverDir, PixcvecName(id)),
      PathJoin(outputDir, AnnotationName(id)),
      if nogdem then None else Some(PathJoin(gdemDir, RivertileName(id))),
      if nogdem then None else Some(PathJoin(gdemDir, PixcvecName(id))),
      if nogdem then None else Some(PathJoin(gdemDir, GdemPixcName(id))))
  }

  /** A plain tile id's output names contain no `/`, so they name files directly in their directory. */
  lemma PlainNames(id: TileId)
    requires PlainTileId(id)
    ensures '/' !in RivertileName(id) && '/' !in PixcvecName(id)
    ensures '/' !in AnnotationName(id) && '/' !in GdemPixcName(id)
  {
  }

  /** Each output file lies directly in its branch directory under its per-tile name. */
  lemma OutputBasenames(outputDir: string, absPath: string -> string, nogdem: bool, id: TileId)
    requires PlainTileId(id)
    ensures var paths := MakeOutputPaths(outputDir, absPath, nogdem, id);
      && Basename(paths.rivertile) == RivertileName(id)
      && Basename(paths.pixcvec) == PixcvecName(id)
      && Basename(paths.annotation) == AnnotationName(id)
      && (!nogdem ==> Basename(paths.rivertileGdem.value) == RivertileName(id))
      && (!nogdem ==> Basename(paths.pixcvecGdem.value) == PixcvecName(id))
      && (!nogdem ==> Basename(paths.gdemPixc.value) == GdemPixcName(id))
  {
    var riverDir := absPath(PathJoin(outputDir, "pixc"));
    PlainNames(id);
    BasenameOfPathJoin(riverDir, RivertileName(id));
    BasenameOfPathJoin(riverDir, PixcvecName(id));
    BasenameOfPathJoin(outputDir, AnnotationName(id));
    if !nogdem {
      var gdemDir := PathJoin(outputDir, "gdem");
      BasenameOfPathJoin(gdemDir, RivertileName(id));
      BasenameOfPathJoin(gdemDir, PixcvecName(id));
      BasenameOfPathJoin(gdemDir, GdemPixcName(id));
    }
  }

  /**
   * Each output lies directly in its directory: the observed-branch outputs
   * in the absolute `<out>/pixc`, the reference-branch outputs and the
   * reference pixel cloud in `<out>/gdem`, and the annotation in `<out>`
   * itself. A directory written with a trailing `/` is found without that
   * `/`, so the first two statements assume there is none.
   */
  lemma OutputDirectories(outputDir: string, absPath: string -> string, nogdem: bool, id: TileId)
    requires PlainTileId(id)
    ensures var paths := MakeOutputPaths(outputDir, absPath, nogdem, id);
      var riverDir := absPath(PathJoin(outputDir, "pixc"));
      && (riverDir == [] || riverDir[|riverDir| - 1] != '/' ==>
            Dirname(paths.rivertile) == riverDir && Dirname(paths.pixcvec) == riverDir)
      && (outputDir == [] || outputDir[|outputDir| - 1] != '/' ==> Dirname(paths.annotation) == outputDir)
      && (!nogdem ==>
            var gdemDir := PathJoin(outputDir, "gdem");
            && Dirname(paths.rivertileGdem.value) == gdemDir
            && Dirname(paths.pixcvecGdem.value) == gdemDir
            && Dirname(paths.gdemPixc.value) == gdemDir)
  {
    var riverDir := absPath(PathJoin(outputDir, "pixc"));
    PlainNames(id);
    if riverDir == [] || riverDir[|riverDir| - 1] != '/' {
      DirnameOfPathJoin(riverDir, RivertileName(id));
      DirnameOfPathJoin(riverDir, PixcvecName(id));
    }
    if outputDir == [] || outputDir[|outputDir| - 1] != '/' {
      DirnameOfPathJoin(outputDir, AnnotationName(id));
    }
    if !nogdem {
      var gdemDir := PathJoin(outputDir, "gdem");
      assert EndsWith(gdemDir, "gdem");
      assert gdemDir[|gdemDir| - 1] == 'm';
      DirnameOfPathJoin(gdemDir, RivertileName(id));
      DirnameOfPathJoin(gdemDir, PixcvecName(id));
      DirnameOfPathJoin(gdemDir, GdemPixcName(id));
    }
  }

  /** A per-tile name splits on `_` into its lead, the cycle, the orbit and the tile with its tail. */
  lemma TileNameFields(lead: string, id: TileId, tail: string)
    requires PlainTileId(id) && '_' !in lead && '_' !in tail
    ensures Split(TileName(lead, id, tail), '_') == [lead, id.cycle, id.orbit, id.tile + tail]
  {
    var s3 := id.tile + tail;
    var s2 := id.orbit + ['_'] + s3;
    var s1 := id.cycle + ['_'] + s2;
    var s0 := lead + ['_'] + s1;
    assert TileName(lead, id, tail) == s0;
    SplitNoSeparator(lead, '_');
    SplitNoSeparator(id.cycle, '_');
    SplitNoSeparator(id.orbit, '_');
    SplitNoSeparator(s3, '_');
    SplitAppend(id.orbit, '_', s3);
    SplitAppend(id.cycle, '_', s2);
    SplitAppend(lead, '_', s1);
  }

  /** Per-tile names with the same lead and tail are equal only for the same tile. */
  lemma TileNameInjective(lead: string, id1: TileId, id2: TileId, tail: string)
    requires PlainTileId(id1) && PlainTileId(id2) && '_' !in lead && '_' !in tail
    requires TileName(lead, id1, tail) == TileName(lead, id2, tail)
    ensures id1 == id2
  {
    TileNameFields(lead, id1, tail);
    TileNameFields(lead, id2, tail);
    assert id1.tile + tail == id2.tile + tail;
    assert id1.tile == (id1.tile + tail)[..|id1.tile|];
    assert id2.tile == (id2.tile + tail)[..|id2.tile|];
  }

  /**
   * Distinct tiles get distinct observed-branch outputs, so jobs for
   * different tiles never write the same file.
   */
  lemma DistinctTilesDistinctOutputs(outputDir: string, absPath: string -> string, nogdem: bool, id1: TileId, id2: TileId)
    requires PlainTileId(id1) && PlainTileId(id2) && id1 != id2
    ensures MakeOutputPaths(outputDir, absPath, nogdem, id1).rivertile != MakeOutputPaths(outputDir, absPath, nogdem, id2).rivertile
    ensures MakeOutputPaths(outputDir, absPath, nogdem, id1).pixcvec != MakeOutputPaths(outputDir, absPath, nogdem, id2).pixcvec
    ensures MakeOutputPaths(outputDir, absPath, nogdem, id1).annotation != MakeOutputPaths(outputDir, absPath, nogdem, id2).annotation
  {
    PlainNames(id1);
    PlainNames(id2);
    var riverDir := absPath(PathJoin(outputDir, "pixc"));
    DistinctTileNamesDistinctPaths(riverDir, "rivertile", id1, id2, ".nc");
    DistinctTileNamesDistinctPaths(riverDir, "pixcvec", id1, id2, ".nc");
    DistinctTileNamesDistinctPaths(outputDir, "river-annotation", id1, id2, ".rdf");
  }

  /** In one directory, the per-tile files of one kind for two distinct tiles have distinct paths. */
  lemma DistinctTileNamesDistinctPaths(dir: string, lead: string, id1: TileId, id2: TileId, tail: string)
    requires PlainTileId(id1) && PlainTileId(id2) && id1 != id2
    requires '_' !in lead && '_' !in tail
    requires '/' !in TileName(lead, id1, tail) && '/' !in TileName(lead, id2, tail)
    ensures PathJoin(dir, TileName(lead, id1, tail)) != PathJoin(dir, TileName(lead, id2, tail))
  {
    if PathJoin(dir, TileName(lead, id1, tail)) == PathJoin(dir, TileName(lead, id2, tail)) {
      PathJoinInjective(dir, TileName(lead, id1, tail), TileName(lead, id2, tail));
      TileNameInjective(lead, id1, id2, tail);
    }
  }

  /** Cycle `001`, orbit `023`, tile `45N` are written to `rivertile_001_023_45N.nc` and `pixcvec_001_023_45N.nc`. */
  lemma NamingExample(outputDir: string, absPath: string -> string, nogdem: bool)
    ensures var paths := MakeOutputPaths(outputDir, absPath, nogdem, TileId("001", "023", "45N"));
      && Basename(paths.rivertile) == "rivertile_001_023_45N.nc"
      && Basename(paths.pixcvec) == "pixcvec_001_023_45N.nc"
      && Basename(paths.annotation) == "river-annotation_001_023_45N.rdf"
      && (!nogdem ==> Basename(paths.gdemPixc.value) == "pixel_cloud_gdem001-023_45N.nc")
  {
    var id := TileId("001", "023", "45N");
    assert TileSuffix(id) == "001_023_45N";
    assert RivertileName(id) == "rivertile_001_023_45N.nc";
    assert PixcvecName(id) == "pixcvec_001_023_45N.nc";
    assert AnnotationName(id) == "river-annotation_001_023_45N.rdf";
    assert GdemPixcName(id) == "pixel_cloud_gdem001-023_45N.nc";
    OutputBasenames(outputDir, absPath, nogdem, id);
  }
}
